=== FILE: README.md ===
# EchoMateLite core, modelled in Dafny

EchoMateLite is a small social network: users register and log in, follow
each other, write short posts, like them and comment on them. The server is a
thin REST layer over a document database; the client keeps an auth state and
a post list. Under the database calls sit a handful of deterministic rules,
and this project models those rules as pure functions over an in-memory
store (a map from user id to user record and one from post id to post
record) and proves what they promise.

Modules, following the program's structure:

- `Common`, `Text`, `Seqs`, `Http`: optional values and ids; the JavaScript
  string primitives the handlers use (`trim` with the exact ECMAScript
  whitespace set, `toLowerCase`, `parseInt`, `join`); the `filter`/`push`
  list toggle and the skip/limit window; status codes and replies.
- `PostSchema` (`backend/src/models/Post.ts`): the post and comment records,
  the required/`maxlength: 280` constraints and the creation defaults.
- `Records`: the user record, the store, the per-request `Step` (store
  afterwards plus reply), and the store invariants: schema validity, the
  mirrored follow graph, unique emails and usernames.
- `Listing` and `Posts` (`backend/src/routes/posts.ts`): the sorted post
  query with `page`/`limit`/`hasMore`, and the create, like, comment, delete,
  feed, timeline and per-user handlers.
- `Users` (`backend/dist/routes/users.js`, the compiled output of a
  TypeScript source that is not part of this model): profile, profile
  update, follow/unfollow. `Records` also holds the cast `findById` applies
  to a route parameter.
- `Auth` (`backend/src/routes/auth.ts`): register, login, `/me`.
- `AuthContext` (`frontend/src/contexts/AuthContext.tsx`): the reducer, its
  initial state and the dispatch sequences of login, register, logout and the
  mount-time token check.
- `Dashboard` (`frontend/src/components/Dashboard.tsx`): the composer and the
  optimistic like update, and their agreement with the server.

Each request is one atomic step. Foreign code enters as parameters: the new
document id and the clock reading (`newId`, `now`), the password hash and
comparison (`hash`, `matches`), and token signing (`sign`). A lookup by a
non-key field (`findOne` by email or username) is a method that picks some
matching user, since the database promises no more.

Behaviour taken from the libraries under the code, stated here because the
model depends on it: Mongoose's `required` rejects the empty string; a
schema violation at `save()` surfaces through the handler's `catch` as a 500;
MongoDB refuses a negative `skip` (again a 500) and the Node driver turns a
negative `limit` into at most `-limit` documents; Mongoose drops `undefined`
keys from an update document, so an absent profile field keeps its value.

## Model

| member | source | states |
|---|---|---|
| Text.Trim | backend/src/routes/posts.ts:15-21 | `trim` returns the infix of the input that neither starts nor ends with whitespace, cutting only whitespace; it is empty exactly when the input is blank |
| Text.TrimmedIsFixed | backend/src/routes/posts.ts:21 | trimming an already trimmed string leaves it unchanged |
| Text.ToLower | backend/src/routes/auth.ts:25 | lower-casing keeps the length, turns each upper-case letter into its lower-case partner (32 code points on), leaves no upper-case letter, and keeps every other character in place |
| Text.LowerKeepsLeadingSpace | backend/src/routes/auth.ts:25 | lower-casing keeps the number of leading whitespace characters |
| Text.NormalizeEmail | backend/src/routes/auth.ts:25 | the normalised email is the lower-cased email with only its surrounding whitespace cut, starting where the email's own leading whitespace ends; it is trimmed, has no upper-case letter, and is empty exactly when the input is blank |
| Text.NormalizeEmailIdempotent | backend/src/routes/auth.ts:84 | normalising an already normalised email is the identity, so normalising the stored email again would not change it |
| Text.NormalizeIgnoresCase | backend/src/routes/auth.ts:25 | two emails that differ only in the case of their letters normalise to the same text, so login finds the stored email whatever case it is typed in |
| Text.DecimalRoundTrip | backend/src/routes/posts.ts:44-45 | `parseInt` reads a decimal rendering of n back as n, ignoring trailing text that starts with a non-digit; only for n = 0 must that text not start with `x`/`X`, which would form the `0x` prefix |
| Text.ParseIntSkipsSpace | backend/src/routes/posts.ts:44-45 | `parseInt` ignores any leading whitespace |
| Text.NegativeDecimalRoundTrip | backend/src/routes/posts.ts:44-45 | a leading `-` negates: `-` followed by the rendering of n reads back as -n |
| Text.HexPrefixReadsBase16 | backend/src/routes/posts.ts:44-45 | after a `0x` prefix the longest run of hexadecimal digits is read in base 16 |
| Text.ParseInt | backend/src/routes/posts.ts:44-45 | `parseInt` with no radix: `undefined` and blank text are `NaN`, and a number comes only from text whose first non-space character is a sign or a digit; what it reads is fixed by Text.DecimalRoundTrip, Text.ParseIntSkipsSpace, Text.NegativeDecimalRoundTrip and Text.HexPrefixReadsBase16 |
| Text.Join | backend/src/routes/auth.ts:21 | the joined text opens with the first part and its length is the parts' lengths plus one separator per gap; no parts give '' and one part gives itself |
| Text.JoinConcat | backend/src/routes/auth.ts:21 | joining two non-empty runs of parts is joining each with one separator between them, which with the one-part case fixes the joined text to the parts in order |
| Seqs.RemoveAll | backend/src/routes/posts.ts:134 | the id filter leaves no occurrence of the removed id and keeps every other id with its multiplicity |
| Seqs.RemoveAllConcat | backend/src/routes/posts.ts:134 | the filter distributes over concatenation, so surviving ids keep their order |
| Seqs.Toggle | backend/src/routes/posts.ts:130-138 | when present every occurrence is removed and the rest keep their order (the `filter`); when absent the id is appended exactly once at the end; no other id's membership changes |
| Seqs.ToggleTwice | backend/src/routes/posts.ts:130-138 | starting from a list without the id, toggling twice restores the list exactly |
| Seqs.Window | backend/src/routes/posts.ts:61-62 | skip/limit returns the consecutive elements starting at `skip`, exactly min(limit, remaining) of them, and none when `skip` is past the end |
| PostSchema.NewPost | backend/src/models/Post.ts:17-54 | a new post has its author and content, `image` defaulted to '', no likes or comments, `createdAt` the creation time, and is valid exactly when its content is non-empty and at most 280 characters |
| PostSchema.NewComment | backend/src/models/Post.ts:35-49 | a new comment has its user and text, `createdAt` the creation time, and is valid exactly when its text is non-empty and at most 280 characters |
| PostSchema.AppendCommentValid | backend/src/models/Post.ts:22-45 | appending a valid comment to a valid post keeps it valid |
| Listing.InsertNewest | backend/src/routes/posts.ts:60 | inserting into a listing adds exactly the new id and keeps every id a stored post |
| Listing.InsertKeepsOrder | backend/src/routes/posts.ts:60 | inserting keeps a list ordered by `createdAt`, newest first |
| Listing.InsertKeepsDistinct | backend/src/routes/posts.ts:60 | inserting an id not yet listed keeps the list free of duplicates |
| Listing.SelectNewestFirst | backend/src/routes/posts.ts:57-60 | the sorted query returns exactly the stored posts the author filter admits, each once, in descending `createdAt` order |
| Listing.PageParam | backend/src/routes/posts.ts:44-45 | `page`/`limit` take the parsed value, or the default (1 or 10) when missing, unparseable or 0; the result is never 0 |
| Listing.PageParamDecimal | backend/src/routes/posts.ts:44-45 | a decimal query parameter such as `?page=3` is taken at its value |
| Listing.Paged | backend/src/routes/posts.ts:46-64 | skip = (page-1)·limit; a negative skip is a 500; otherwise the posts at positions skip.. of the answer, exactly min(\|limit\|, remaining) of them, with `hasMore` true exactly when `limit` posts came back |
| Listing.PagedFromListing | backend/src/routes/posts.ts:57-64 | every post of a page is stored as listed, admitted by the filter, and the page is in descending `createdAt` order |
| Posts.CreatePost | backend/src/routes/posts.ts:10-37 | missing or blank content is a 400 with the store unchanged; over-long trimmed content is a 500 with the store unchanged; otherwise a valid post with the trimmed content, the requester as author and `image` defaulting to '' is stored under the new id and nothing else changes |
| Posts.LikeById | backend/src/routes/posts.ts:125-146 | on a cast id: a missing post is a 404; otherwise only that post's `likes` change: an unlike filters the requester out keeping the others in order, a like appends the requester; and the reply's `isLiked` is the negated prior membership and `likesCount` the new length |
| Posts.ToggleLike | backend/src/routes/posts.ts:120-151 | the route: a parameter `findById` cannot cast is a 500; any spelling of an id acts as the cast id, so the like succeeds exactly when the cast id is a stored post |
| Posts.LikeTwiceRestores | backend/src/routes/posts.ts:125-140 | liking and then unliking, through any spelling of its id, a post the requester had not liked restores the whole store |
| Posts.CommentById | backend/src/routes/posts.ts:160-184 | on a cast id: blank text is a 400, a missing post a 404, over-long text a 500; otherwise exactly one comment by the requester with the trimmed text is appended after the unchanged earlier ones, and it is the one returned |
| Posts.AddComment | backend/src/routes/posts.ts:154-189 | the route: blank text is a 400 whatever the parameter, then a parameter that does not cast is a 500; a comment is added exactly when the text is present and within 280 characters after trimming and the cast id is a stored post |
| Posts.DeleteById | backend/src/routes/posts.ts:197-209 | on a cast id: 404 when absent, 403 when the requester is not the author, otherwise exactly that post is removed, nothing else changes and the reply is 'Post deleted successfully' |
| Posts.DeletePost | backend/src/routes/posts.ts:192-214 | the route: a parameter that does not cast is a 500; the post is removed exactly when the cast id is a stored post by the requester |
| Posts.PostRoutesKeepSchema | backend/src/models/Post.ts:22-45 | create, like, comment and delete all keep every stored post within the schema |
| Posts.FeedAuthors | backend/src/routes/posts.ts:54-55 | the feed authors are exactly the followed users and the requester |
| Posts.Feed | backend/src/routes/posts.ts:41-69 | a missing requester is a 404; otherwise the reply is a page of a full newest-first listing of the posts by followed users or the requester, and every post in it has such an author |
| Posts.Timeline | backend/src/routes/posts.ts:72-90 | the reply is a page of a full newest-first listing of all posts |
| Posts.UserPosts | backend/src/routes/posts.ts:93-117 | no user with the username is a 404; when one exists the reply is a page of a full newest-first listing of the posts of such a user, all authored by a user with that username |
| Users.GetProfile | backend/dist/routes/users.js:11-40 | no user with the username is a 404; otherwise the profile of such a user with `followersCount`/`followingCount` the lengths of the lists, and with unique usernames the profile of the one user |
| Users.UpdateShowsInProfile | backend/dist/routes/users.js:42-66 | after a profile update the requester's profile shows the given fields and unchanged counts, and usernames stay unique so the profile route finds it |
| Users.UpdateProfile | backend/dist/routes/users.js:42-66 | a missing user is a 404; otherwise only `fullName`, `bio` and `profilePicture` of the requester change, each to the given value or kept when absent |
| Users.UpdateProfileKeepsMirror | backend/dist/routes/users.js:44-46 | a profile update keeps the follow graph mirrored |
| Records.CastId | backend/dist/routes/users.js:75 | a parameter casts exactly when it is 24 hexadecimal digits (either case), to the canonical lower-case id; a canonical id casts to itself |
| Users.ToggleFollowAsWritten | backend/dist/routes/users.js:68-102 | the route as written: the raw parameter equal to the requester's id is a 400; a parameter that does not cast a 500; a missing user a 404; otherwise unfollow filters `following` by the raw parameter and `followers` by the requester's id, follow appends to both; posts, all other users and every other field of the two records stay as they were |
| Users.CanonicalParamAgrees | backend/dist/routes/users.js:68-102 | for a parameter in canonical spelling the route as written and the corrected toggle give the same step |
| Users.SelfFollowThroughOtherSpelling | backend/dist/routes/users.js:72-75 | a parameter that casts to the requester's own id in another spelling passes the self-follow guard as written; the corrected toggle answers 400 |
| Users.SampleSpelling | backend/dist/routes/users.js:75 | the upper-case spelling of a sample id differs from it but casts to it |
| Users.SelfFollowSample | backend/dist/routes/users.js:72-92 | the sample user following the upper-case spelling of their own id gets a 200 as written and a 400 when corrected |
| Users.UnfollowThroughOtherSpellingBreaksMirror | backend/dist/routes/users.js:83-84 | as written, unfollowing through another spelling of the target's id answers 'Unfollowed' yet leaves the follow graph unmirrored |
| Users.SaveBoth | backend/dist/routes/users.js:91-92 | the current user's save writes only `following`, then the target's save writes only `followers`; every other user and every other field stay as they were, and when the two are one user both lists land on that record |
| Users.FollowById | backend/dist/routes/users.js:72-96 | on a cast id: following oneself is a 400; a missing user a 404; otherwise unfollow filters every occurrence out of both lists keeping the others in order, follow appends to both, only those two lists change, and `isFollowing` negates the prior state |
| Users.ToggleFollow | backend/dist/routes/users.js:68-102 | the corrected route: a parameter that does not cast is a 500, otherwise the toggle on the cast id |
| Users.SpellingIrrelevant | backend/dist/routes/users.js:68-102 | with the correction, two spellings of one id give the same step |
| Users.FollowByIdKeepsMirror | backend/dist/routes/users.js:80-92 | if every pair satisfies "A in B.followers iff B in A.following" before a toggle on a cast id, every pair does after |
| Users.ToggleFollowKeepsMirror | backend/dist/routes/users.js:68-102 | the corrected route keeps the follow graph mirrored for every parameter |
| Users.FollowByIdTwiceRestores | backend/dist/routes/users.js:80-92 | in a mirrored graph, following and then unfollowing a cast id restores the whole store |
| Users.FollowTwiceRestores | backend/dist/routes/users.js:68-102 | with the correction, following and then unfollowing under any spelling of the target's id restores the whole store |
| Auth.MissingFields | backend/src/routes/auth.ts:14-20 | the missing list names exactly the absent fields, each once, in the order username, email, password, fullName, and is empty exactly when all are present |
| Auth.Register | backend/src/routes/auth.ts:9-73 | absent fields are a 400 listing them joined by ", "; a taken normalised email or username is a 400 creating nothing; otherwise exactly one user is added with the normalised email and hashed password, and a token is signed for it |
| Auth.RegisterKeepsUnique | backend/src/routes/auth.ts:31-47 | registration keeps emails and usernames unique across users |
| Auth.RegisterKeepsMirror | backend/src/routes/auth.ts:42-47 | registering under an unreferenced id keeps the follow graph mirrored |
| Auth.FindByEmail | backend/src/routes/auth.ts:90 | the lookup finds nothing exactly when no stored user has the email, and otherwise a user stored with that email |
| Auth.LoginAnswer | backend/src/routes/auth.ts:91-119 | no user and a non-matching password both give the same 401 'Invalid credentials'; a match, and only a match, gives 200 with the signed token and that user's summary |
| Auth.Login | backend/src/routes/auth.ts:76-124 | a missing email or password is a 400; with both present the answer is a success or the 401, and every other failure is the same 401 'Invalid credentials', whether the email is unknown or the password wrong; success returns a token for a user with the normalised email whose password matches, and with unique emails success happens exactly when such a user exists |
| Auth.CurrentUser | backend/src/routes/auth.ts:127-140 | `/me` reports the stored profile fields, and the follower and following counts as the list lengths, 0 for empty lists; Auth.FollowRaisesCounts relates the counts to the follow route |
| Auth.FollowRaisesCounts | backend/src/routes/auth.ts:127-140 | after following a user not yet followed, `/me` shows the target's follower count and the requester's following count each one higher, the other two unchanged |
| AuthContext.InitialState | frontend/src/contexts/AuthContext.tsx:23-28 | the initial state has no user, token or error and is loading |
| AuthContext.Reduce | frontend/src/contexts/AuthContext.tsx:30-55 | LOGIN_START sets loading and clears the error keeping user and token; LOGIN_SUCCESS installs user and token; LOGIN_FAILURE clears both and records the message; SET_LOADING, CLEAR_ERROR and UPDATE_USER change only their field; after LOGIN_SUCCESS, LOGIN_FAILURE or LOGOUT loading is false and user and token are both set or both null |
| AuthContext.LogoutForgets | frontend/src/contexts/AuthContext.tsx:44-45 | LOGOUT yields the same state from any prior state, so logging out twice equals once |
| AuthContext.RunKeepsCoherent | frontend/src/contexts/AuthContext.tsx:30-55 | over any action sequence, a token is only held with a user and an error only without a token |
| AuthContext.ErrorMessage | frontend/src/contexts/AuthContext.tsx:109 | the server's message when non-empty, otherwise the fallback |
| AuthContext.Attempt | frontend/src/contexts/AuthContext.tsx:98-130 | login and register end not loading, logged in with the returned user and token, or logged out with the error message |
| AuthContext.FailureFallbacks | frontend/src/contexts/AuthContext.tsx:109-127 | a failure without a server message shows 'Login failed' or 'Registration failed' |
| AuthContext.CheckStoredToken | frontend/src/contexts/AuthContext.tsx:79-96 | the mount check ends not loading: logged in when the stored token's user is fetched, logged out with no error when not (the `LOGOUT` reset), unchanged otherwise |
| AuthContext.MountSettles | frontend/src/contexts/AuthContext.tsx:76-96 | from the initial state the mount check leaves user and token both set or both unset |
| Dashboard.RemainingChars | frontend/src/components/Dashboard.tsx:151-154 | the counter plus the draft length is 280, non-negative exactly when the draft fits the textarea; Dashboard.CounterAllowsCreate relates it to the server |
| Dashboard.CounterAllowsCreate | frontend/src/components/Dashboard.tsx:151-157 | a non-blank draft the counter shows as within its limit is always stored by the create route, never refused by the schema's length check |
| Dashboard.SubmitDraft | frontend/src/components/Dashboard.tsx:34-48 | a blank draft changes nothing; a created post is put in front of the unchanged list and the draft is cleared; a failed request keeps list and draft; the create is no longer in flight |
| Dashboard.PostDisabled | frontend/src/components/Dashboard.tsx:157 | the button is disabled exactly when the trimmed draft is empty or a create is in flight |
| Dashboard.SubmitRespectsButton | frontend/src/components/Dashboard.tsx:155-157 | the button is disabled for a blank draft, for which submitting does nothing, and disabled again after a successful create clears the draft |
| Dashboard.UpdatedLikes | frontend/src/components/Dashboard.tsx:57-59 | when liked the user id is appended without a membership check; otherwise every occurrence of it is filtered out and the other ids keep their order |
| Dashboard.ApplyLike | frontend/src/components/Dashboard.tsx:53-63 | only posts whose id matches change, and only in their likes |
| Dashboard.HandleLike | frontend/src/components/Dashboard.tsx:50-67 | a failed like request leaves the list unchanged |
| Dashboard.LikeUpdateAgrees | frontend/src/components/Dashboard.tsx:57-59 | when the client's likes equal the stored ones before a toggle, they are equal again after the client applies the reply, and the heart shows the reply's `isLiked` |
| Dashboard.SubmitShowsTrimmedDraft | frontend/src/components/Dashboard.tsx:40-42 | a draft the server accepts appears at the head of the list with the trimmed draft as content and no likes |

## Left out

- Database driver calls: the store is two maps and each handler one atomic step. Other requests interleaving with a handler (between the two saves of a follow toggle, say) and a failure after the first of those saves are not modelled; the two saves themselves are Users.SaveBoth.
- `populate`: replies carry author and comment-user ids, not the projected username/fullName/profilePicture.
- Password hashing, password comparison and JWT signing and expiry: foreign code, passed in as the parameters `hash`, `matches` and `sign`.
- The authentication middleware: the requester id is a parameter.
- The user search route: its regex matching is done by the database.
- The user model file is not part of this model: its validators, unique indexes and defaults are unknown, so a new user's `bio` and `profilePicture` are taken as '' and a failing user `save()` is not modelled.
- Generic `catch`-to-500 paths, except schema violations at `save()`, a negative skip and a follow or post parameter that does not cast: body fields that are not strings (the body is modelled as optional strings) and database failures are not modelled.
- Records.CastId: only 24-digit hexadecimal strings cast; the 12-character strings the ObjectId cast also accepts are treated as failing to cast.
- Text.ToLower: maps only the ASCII letters A-Z, while `toLowerCase` maps all of Unicode.
- PostSchema.ValidText: counts code points, while JavaScript's `length` and `maxlength` count UTF-16 units.
- Text.ParseInt: exact integers; JavaScript numbers lose precision beyond 2^53, a digit run too long for a double becomes `Infinity`, and a repeated query parameter (an array) is not modelled. So a `page` or `limit` whose skip exceeds MongoDB's 64-bit range (a 20-digit `?page=`, say) is a 500 in the route but an empty 200 page in the model.
- Auth.Login: with duplicate emails in the store the user compared is whichever `findOne` picks, so success is only characterised exactly when emails are unique.
- Constant success messages of the routes whose replies also carry data are not carried: 'User created successfully' (register), 'Login successful' (login), 'Post created successfully' (create), 'Comment added successfully' (comment) and 'Profile updated successfully' (profile update). The varying messages (like, follow), the delete route's 'Post deleted successfully' and all error messages are carried.
- AuthContext: the reducer's `default` branch cannot be reached with the seven typed actions; the re-throw after LOGIN_FAILURE and the `localStorage` token storage are I/O.
- Dashboard: the initial timeline load, the loading spinner, `formatDate` and the JSX rendering.
- The HTTP client, the page routing and the seed script, and the compiled copies of the post and auth routes, which duplicate or predate the source versions modelled here.

## Findings

| source | as written | input that shows it | evidently intended | confidence | as-written member | corrected member |
|---|---|---|---|---|---|---|
| backend/dist/routes/users.js:72-84 | the self-follow guard and the unfollow filter of `current.following` compare the raw `:userId` parameter, while `findById` casts it case-insensitively | the user with id `00000000000000000000000a` posts `/users/follow/00000000000000000000000A`: a 200 and a self-follow; unfollowing a followed user through an upper-case spelling removes the requester from the target's followers but keeps the target in `following` | compare the cast id in the guard and in both filters, so every spelling of an id acts alike and the follow graph stays mirrored | not executed | Users.ToggleFollowAsWritten (Users.SelfFollowSample, Users.UnfollowThroughOtherSpellingBreaksMirror) | Users.ToggleFollow (Users.ToggleFollowKeepsMirror, Users.FollowTwiceRestores) |

=== FILE: auth.dfy ===
/** The authentication routes: registration with its field and duplicate
    checks, login with its uniform credential failure, and `/me`. Password
    hashing and comparison and token signing are foreign code and enter as
    function parameters. */
module Auth {
  import opened Common
  import opened Text
  import opened Http
  import opened Records
  import Users

  const MissingPrefix := "Missing required field(s): "
  const AlreadyExists := "User with this email or username already exists"
  const MissingCredentials := "Missing email or password"
  const InvalidCredentials := "Invalid credentials"

  /** The register body fields, each possibly absent. */
  datatype RegisterBody = RegisterBody(username: Option<string>, email: Option<string>,
                                       password: Option<string>, fullName: Option<string>)

  /** The names of the required fields, in the order the handler checks them. */
  const RequiredFields := ["username", "email", "password", "fullName"]

  /** Whether the named field of the body is falsy (absent or empty). */
  predicate IsAbsent(body: RegisterBody, field: string) {
    match field
    case "username" => !IsPresent(body.username)
    case "email" => !IsPresent(body.email)
    case "password" => !IsPresent(body.password)
    case "fullName" => !IsPresent(body.fullName)
    case _ => false
  }

  /** Position of a field name in `RequiredFields`. */
  function Rank(field: string): (n: nat)
    ensures field in RequiredFields ==> n < |RequiredFields| && RequiredFields[n] == field
  {
    match field
    case "username" => 0
    case "email" => 1
    case "password" => 2
    case "fullName" => 3
    case _ => 4
  }

  /** The `missing` list: exactly the absent required fields, in the order of
      `RequiredFields`, each once. */
  function MissingFields(body: RegisterBody): (missing: seq<string>)
    ensures forall f :: f in missing <==> f in RequiredFields && IsAbsent(body, f)
    ensures forall i, j :: 0 <= i < j < |missing| ==> Rank(missing[i]) < Rank(missing[j])
    ensures missing == [] <==>
      IsPresent(body.username) && IsPresent(body.email) && IsPresent(body.password) && IsPresent(body.fullName)
  {
    (if IsPresent(body.username) then [] else ["username"])
    + (if IsPresent(body.email) then [] else ["email"])
    + (if IsPresent(body.password) then [] else ["password"])
    + (if IsPresent(body.fullName) then [] else ["fullName"])
  }

  /** The public user summary returned with a token. */
  datatype UserSummary = UserSummary(id: Id, username: string, email: string, fullName: string,
                                     profilePicture: string)

  /** The `{ token, user }` reply of register and login. */
  datatype AuthReply = AuthReply(token: string, user: UserSummary)

  function Summary(id: Id, u: User): UserSummary {
    UserSummary(id, u.username, u.email, u.fullName, u.profilePicture)
  }

  /** Whether some stored user already has this (normalised) email or this
      username: the `$or` duplicate query. */
  predicate Taken(st: Store, email: string, username: string) {
    exists k :: k in st.users && (st.users[k].email == email || st.users[k].username == username)
  }

  /** `POST /auth/register`. Absent fields give a 400 naming them; an email
      (after normalisation) or username already in use gives a 400 and
      creates nothing; otherwise the user is stored under `newId` with the
      normalised email and the hashed password, and a token is signed for
      it. */
  function Register(st: Store, body: RegisterBody, newId: Id, hash: string -> string,
                    sign: Id -> string, now: int): (r: Step<AuthReply>)
    requires newId !in st.users
    ensures MissingFields(body) != [] ==>
      r == Step(st, Error(BadRequest, MissingPrefix + Join(MissingFields(body), ", ")))
    ensures MissingFields(body) == [] && Taken(st, NormalizeEmail(body.email.value), body.username.value) ==>
      r == Step(st, Error(BadRequest, AlreadyExists))
    ensures r.response.Reply? <==>
      MissingFields(body) == [] && !Taken(st, NormalizeEmail(body.email.value), body.username.value)
    ensures r.response.Reply? ==>
      && r.response.status == Created
      && newId in r.store.users
      && var u := r.store.users[newId];
      && r.store == st.(users := st.users[newId := u])
      && u.username == body.username.value
      && u.email == NormalizeEmail(body.email.value)
      && u.password == hash(body.password.value)
      && u.fullName == body.fullName.value
      && u.followers == [] && u.following == [] && u.createdAt == now
      && r.response.body == AuthReply(sign(newId), Summary(newId, u))
  {
    var missing := MissingFields(body);
    if missing != [] then Step(st, Error(BadRequest, MissingPrefix + Join(missing, ", ")))
    else
      var email := NormalizeEmail(body.email.value);
      if Taken(st, email, body.username.value) then Step(st, Error(BadRequest, AlreadyExists))
      else
        var u := User(body.username.value, email, hash(body.password.value), body.fullName.value,
                      "", "", [], [], now);
        Step(st.(users := st.users[newId := u]), Reply(Created, AuthReply(sign(newId), Summary(newId, u))))
  }

  /** Registration keeps emails and usernames unique. */
  lemma RegisterKeepsUnique(st: Store, body: RegisterBody, newId: Id, hash: string -> string,
                            sign: Id -> string, now: int)
    requires newId !in st.users && UniqueEmails(st) && UniqueUsernames(st)
    ensures UniqueEmails(Register(st, body, newId, hash, sign, now).store)
    ensures UniqueUsernames(Register(st, body, newId, hash, sign, now).store)
  {
  }

  /** Registration keeps the follow graph mirrored when the new id is one no
      list mentions. */
  lemma RegisterKeepsMirror(st: Store, body: RegisterBody, newId: Id, hash: string -> string,
                            sign: Id -> string, now: int)
    requires FreshUserId(st, newId) && FollowMirror(st)
    ensures FollowMirror(Register(st, body, newId, hash, sign, now).store)
  {
  }

  /** `User.findOne({ email })`: some user stored with that email, or none
      when no user has it. */
  method FindByEmail(st: Store, e: string) returns (found: Option<Id>)
    ensures found.None? <==> forall k :: k in st.users ==> st.users[k].email != e
    ensures found.Some? ==> found.value in st.users && st.users[found.value].email == e
  {
    if forall k :: k in st.users ==> st.users[k].email != e {
      return None;
    }
    var k :| k in st.users && st.users[k].email == e;
    return Some(k);
  }

  /** The part of login after the lookup: no user found and a password that
      does not match give the same 401; a match gives a token and the user
      summary. */
  function LoginAnswer(st: Store, found: Option<Id>, password: string,
                       matches: (string, string) -> bool, sign: Id -> string): (r: Response<AuthReply>)
    requires found.Some? ==> found.value in st.users
    ensures r.Reply? <==> found.Some? && matches(st.users[found.value].password, password)
    ensures r.Error? ==> r == Error(Unauthorized, InvalidCredentials)
    ensures r.Reply? ==>
      && r.status == Ok
      && r.body.token == sign(found.value)
      && r.body.user == Summary(found.value, st.users[found.value])
  {
    match found
    case None => Error(Unauthorized, InvalidCredentials)
    case Some(k) =>
      if matches(st.users[k].password, password) then Reply(Ok, AuthReply(sign(k), Summary(k, st.users[k])))
      else Error(Unauthorized, InvalidCredentials)
  }

  /** `POST /auth/login`. A missing email or password is a 400. The email is
      normalised before the lookup; an unknown email and a wrong password give
      the same 401. `matches(digest, password)` stands for the stored hash
      comparison; the user found is some user with that email, as `findOne`
      picks. */
  method Login(st: Store, email: Option<string>, password: Option<string>,
               matches: (string, string) -> bool, sign: Id -> string) returns (r: Response<AuthReply>)
    ensures !IsPresent(email) || !IsPresent(password) ==> r == Error(BadRequest, MissingCredentials)
    ensures r.Error? && r.status != BadRequest ==> r == Error(Unauthorized, InvalidCredentials)
    ensures IsPresent(email) && IsPresent(password) ==> r.Reply? || r == Error(Unauthorized, InvalidCredentials)
    ensures IsPresent(email) && IsPresent(password)
      && (forall k :: k in st.users ==> st.users[k].email != NormalizeEmail(email.value))
      ==> r == Error(Unauthorized, InvalidCredentials)
    ensures IsPresent(email) && IsPresent(password) && UniqueEmails(st) ==>
      (r.Reply? <==> exists k :: k in st.users && st.users[k].email == NormalizeEmail(email.value)
                                && matches(st.users[k].password, password.value))
    ensures r.Reply? ==> exists k ::
      && k in st.users && st.users[k].email == NormalizeEmail(email.value)
      && matches(st.users[k].password, password.value)
      && r == Reply(Ok, AuthReply(sign(k), Summary(k, st.users[k])))
  {
    if !IsPresent(email) || !IsPresent(password) {
      return Error(BadRequest, MissingCredentials);
    }
    var found := FindByEmail(st, NormalizeEmail(email.value));
    r := LoginAnswer(st, found, password.value, matches, sign);
  }

  /** The `/me` reply: the stored fields and the two list lengths. */
  datatype Me = Me(id: Id, username: string, email: string, fullName: string, bio: string,
                   profilePicture: string, followers: nat, following: nat)

  /** `GET /auth/me` for the authenticated user `u` stored under `id`. */
  function CurrentUser(id: Id, u: User): (m: Me)
    ensures m.followers == |u.followers| && m.following == |u.following|
    ensures m.followers == 0 <==> u.followers == []
    ensures m.following == 0 <==> u.following == []
    ensures m.username == u.username && m.email == u.email && m.fullName == u.fullName
    ensures m.bio == u.bio && m.profilePicture == u.profilePicture && m.id == id
  {
    Me(id, u.username, u.email, u.fullName, u.bio, u.profilePicture, |u.followers|, |u.following|)
  }

  /** `/me` tracks the follow route: a successful follow of a user not yet
      followed raises the target's follower count and the requester's
      following count by exactly one, and leaves the other counts alone. */
  lemma FollowRaisesCounts(st: Store, current: Id, param: string)
    requires current in st.users && CastId(param).Some?
    requires CastId(param).value in st.users && CastId(param).value != current
    requires CastId(param).value !in st.users[current].following
    ensures var target := CastId(param).value;
      var s := Users.ToggleFollow(st, current, param).store;
      && current in s.users && target in s.users
      && CurrentUser(target, s.users[target]).followers == CurrentUser(target, st.users[target]).followers + 1
      && CurrentUser(current, s.users[current]).following == CurrentUser(current, st.users[current]).following + 1
      && CurrentUser(target, s.users[target]).following == CurrentUser(target, st.users[target]).following
      && CurrentUser(current, s.users[current]).followers == CurrentUser(current, st.users[current]).followers
  {
  }
}

=== FILE: auth_context.dfy ===
/** The client's authentication state: the reducer behind the auth context,
    its initial state, and the action sequences that `login`, `register`,
    `logout` and the mount-time token check dispatch. */
module AuthContext {
  import opened Common

  /** The user object the client keeps. */
  datatype ClientUser = ClientUser(id: Id, username: string, email: string, fullName: string,
                                   bio: Option<string>, profilePicture: Option<string>)

  /** `{ user, token, loading, error }`; `None` is `null`. */
  datatype AuthState = AuthState(user: Option<ClientUser>, token: Option<string>, loading: bool,
                                 error: Option<string>)

  /** The seven actions. */
  datatype AuthAction =
    | LoginStart
    | LoginSuccess(user: ClientUser, token: string)
    | LoginFailure(message: string)
    | Logout
    | SetLoading(loading: bool)
    | ClearError
    | UpdateUser(user: ClientUser)

  /** Nothing known yet, and loading until the stored token has been checked. */
  const Initial := AuthState(None, None, true, None)

  /** The initial state has no user, token or error, is loading, and is
      coherent. */
  lemma InitialState()
    ensures Initial.user.None? && Initial.token.None? && Initial.error.None? && Initial.loading
    ensures Coherent(Initial)
  {
  }

  /** The actions after which a request has finished. */
  predicate Settles(a: AuthAction) {
    a.LoginSuccess? || a.LoginFailure? || a.Logout?
  }

  /** The reducer. */
  function Reduce(s: AuthState, a: AuthAction): (r: AuthState)
    ensures a.LoginStart? ==> r.loading && r.error.None? && r.user == s.user && r.token == s.token
    ensures a.LoginSuccess? ==> r.user == Some(a.user) && r.token == Some(a.token) && r.error.None?
    ensures a.LoginFailure? ==> r.user.None? && r.token.None? && r.error == Some(a.message)
    ensures a.Logout? ==> r.user.None? && r.token.None? && r.error.None?
    ensures a.SetLoading? ==> r == s.(loading := a.loading)
    ensures a.ClearError? ==> r == s.(error := None)
    ensures a.UpdateUser? ==> r == s.(user := Some(a.user))
    ensures Settles(a) ==> !r.loading && (r.user.Some? <==> r.token.Some?)
  {
    match a
    case LoginStart => s.(loading := true, error := None)
    case LoginSuccess(user, token) => s.(user := Some(user), token := Some(token), loading := false, error := None)
    case LoginFailure(message) => s.(loading := false, error := Some(message), user := None, token := None)
    case Logout => s.(user := None, token := None, loading := false, error := None)
    case SetLoading(loading) => s.(loading := loading)
    case ClearError => s.(error := None)
    case UpdateUser(user) => s.(user := Some(user))
  }

  /** `LOGOUT` forgets everything: the same state from any prior state, so
      logging out twice is logging out once. */
  lemma LogoutForgets(s: AuthState, t: AuthState)
    ensures Reduce(s, Logout) == Reduce(t, Logout) == AuthState(None, None, false, None)
    ensures Reduce(Reduce(s, Logout), Logout) == Reduce(s, Logout)
  {
  }

  /** Dispatching a sequence of actions in order. */
  function Run(s: AuthState, actions: seq<AuthAction>): AuthState
    decreases |actions|
  {
    if actions == [] then s else Run(Reduce(s, actions[0]), actions[1..])
  }

  /** A token is only held together with a user, and an error is only shown
      without a token. */
  predicate Coherent(s: AuthState) {
    (s.token.Some? ==> s.user.Some?) && (s.error.Some? ==> s.token.None?)
  }

  /** Every reachable state is coherent: the initial state is, and every
      action keeps it so. */
  lemma {:induction false} RunKeepsCoherent(s: AuthState, actions: seq<AuthAction>)
    requires Coherent(s)
    ensures Coherent(Run(s, actions))
    decreases |actions|
  {
    if actions != [] {
      RunKeepsCoherent(Reduce(s, actions[0]), actions[1..]);
    }
  }

  /** What a request to the auth API came back with: the user and token, or
      a failure with the server's `message` when it sent one. */
  datatype ApiOutcome = Accepted(user: ClientUser, token: string) | Rejected(message: Option<string>)

  /** `error.response?.data?.message || fallback`: an empty message counts as
      none. */
  function ErrorMessage(message: Option<string>, fallback: string): (m: string)
    ensures message.Some? && message.value != "" ==> m == message.value
    ensures message.None? || message.value == "" ==> m == fallback
  {
    if message.Some? && message.value != "" then message.value else fallback
  }

  /** `LOGIN_START`, then `LOGIN_SUCCESS` or `LOGIN_FAILURE` with the error
      message or `fallback`: the dispatches of `login` (fallback
      'Login failed') and `register` (fallback 'Registration failed'). */
  function Attempt(s: AuthState, outcome: ApiOutcome, fallback: string): (r: AuthState)
    ensures !r.loading
    ensures outcome.Accepted? ==> r == AuthState(Some(outcome.user), Some(outcome.token), false, None)
    ensures outcome.Rejected? ==>
      r == AuthState(None, None, false, Some(ErrorMessage(outcome.message, fallback)))
  {
    var started := Reduce(s, LoginStart);
    match outcome
    case Accepted(user, token) => Reduce(started, LoginSuccess(user, token))
    case Rejected(message) => Reduce(started, LoginFailure(ErrorMessage(message, fallback)))
  }

  const LoginFailed := "Login failed"
  const RegistrationFailed := "Registration failed"

  function LoginFlow(s: AuthState, outcome: ApiOutcome): AuthState {
    Attempt(s, outcome, LoginFailed)
  }

  function RegisterFlow(s: AuthState, outcome: ApiOutcome): AuthState {
    Attempt(s, outcome, RegistrationFailed)
  }

  /** A failed login or registration without a server message shows the
      fixed fallback text. */
  lemma FailureFallbacks(s: AuthState)
    ensures LoginFlow(s, Rejected(None)).error == Some("Login failed")
    ensures RegisterFlow(s, Rejected(None)).error == Some("Registration failed")
    ensures LoginFlow(s, Rejected(Some(""))).error == Some("Login failed")
  {
  }

  /** The mount-time check: with a stored (non-empty) token the current user
      is fetched, giving `LOGIN_SUCCESS` or, when that fails, `LOGOUT`; with
      none, loading just ends. */
  function CheckStoredToken(s: AuthState, stored: Option<string>, me: Option<ClientUser>): (r: AuthState)
    ensures !r.loading
    ensures stored.Some? && stored.value != "" && me.Some? ==>
      r.user == me && r.token == stored && r.error.None?
    ensures stored.Some? && stored.value != "" && me.None? ==> r == AuthState(None, None, false, None)
    ensures stored.None? || stored.value == "" ==> r == s.(loading := false)
  {
    if stored.Some? && stored.value != "" then
      match me
      case Some(user) => Reduce(s, LoginSuccess(user, stored.value))
      case None => Reduce(s, Logout)
    else Reduce(s, SetLoading(false))
  }

  /** Starting from the initial state, the mount check leaves user and token
      both set or both unset. */
  lemma MountSettles(stored: Option<string>, me: Option<ClientUser>)
    ensures var r := CheckStoredToken(Initial, stored, me);
      !r.loading && (r.user.Some? <==> r.token.Some?) && Coherent(r)
  {
  }
}

=== FILE: common.dfy ===
/** Shared vocabulary: optional values (JavaScript's `undefined`/`null`) and
    the opaque document identifiers the database assigns. */
module Common {

  /** A value that may be absent, as a request-body field or a nullable
      client field may be. */
  datatype Option<+T> = None | Some(value: T) {

    /** The value, or `default` when absent. */
    function GetOr(default: T): T {
      match this
      case Some(v) => v
      case None => default
    }
  }

  /** A document identifier (a MongoDB ObjectId in its string form). */
  type Id = string
}

=== FILE: dashboard.dfy ===
/** The dashboard's pure state updates: the post composer (submit, remaining
    characters, button state) and the optimistic like update applied to the
    post list after the server answers. */
module Dashboard {
  import opened Common
  import opened Text
  import opened Seqs
  import opened PostSchema
  import opened Records
  import Posts
  import opened AuthContext

  /** A post as the client lists it. */
  datatype ClientPost = ClientPost(id: Id, author: Id, content: string, image: string,
                                   likes: seq<Id>, commentCount: nat, createdAt: int)

  /** The client view of a stored post. */
  function View(id: Id, p: Post): ClientPost {
    ClientPost(id, p.author, p.content, p.image, p.likes, |p.comments|, p.createdAt)
  }

  /** The composer: the listed posts, the draft text, and whether a create
      request is in flight. */
  datatype Composer = Composer(posts: seq<ClientPost>, draft: string, creating: bool)

  /** The textarea's `maxLength` and the counter's base. */
  const DraftLimit := 280

  /** The "characters remaining" counter. */
  function RemainingChars(draft: string): (n: int)
    ensures n + |draft| == DraftLimit
    ensures n >= 0 <==> |draft| <= DraftLimit
  {
    DraftLimit - |draft|
  }

  /** The Post button is disabled while the draft is blank or a create is in
      flight; the page writes the first as "the trimmed draft is empty". */
  function PostDisabled(c: Composer): (disabled: bool)
    ensures disabled <==> Trim(c.draft) == [] || c.creating
  {
    IsBlank(c.draft) || c.creating
  }

  /** `handleCreatePost`: a blank draft submits nothing; otherwise the draft is
      sent (untrimmed; the server trims) and, when the server returns the
      created post, it is put in front of the list and the draft is cleared;
      a failed request keeps list and draft. `created` is the server's
      answer, `None` for a failed request. */
  function SubmitDraft(c: Composer, created: Option<ClientPost>): (r: Composer)
    ensures IsBlank(c.draft) ==> r == c
    ensures !IsBlank(c.draft) ==> !r.creating
    ensures !IsBlank(c.draft) && created.Some? ==>
      |r.posts| == |c.posts| + 1 && r.posts[0] == created.value && r.posts[1..] == c.posts && r.draft == ""
    ensures !IsBlank(c.draft) && created.None? ==> r.posts == c.posts && r.draft == c.draft
  {
    if Trim(c.draft) == [] then c
    else
      match created
      case Some(p) => Composer([p] + c.posts, "", false)
      case None => c.(creating := false)
  }

  /** The button state matches what submitting would do: an enabled button
      submits a non-blank draft, a blank draft submits nothing, and after a
      successful create the cleared draft disables the button again. */
  lemma SubmitRespectsButton(c: Composer, created: Option<ClientPost>)
    ensures !PostDisabled(c) ==> !IsBlank(c.draft)
    ensures IsBlank(c.draft) ==> PostDisabled(c) && SubmitDraft(c, created) == c
    ensures !IsBlank(c.draft) && created.Some? ==> PostDisabled(SubmitDraft(c, created))
  {
  }

  /** The id the client appends for itself: `user?.id || ''`. */
  function SelfId(user: Option<ClientUser>): Id {
    if user.Some? then user.value.id else ""
  }

  /** The likes of one post after the server reported `isLiked`: appended
      without a membership check when liked, otherwise every occurrence of
      the user's id removed (nothing when no user is known, since no id equals
      `undefined`). */
  function UpdatedLikes(likes: seq<Id>, user: Option<ClientUser>, isLiked: bool): (r: seq<Id>)
    ensures isLiked ==> r == likes + [SelfId(user)]
    ensures !isLiked && user.Some? ==> user.value.id !in r && multiset(r) == multiset(likes)[user.value.id := 0]
    ensures !isLiked && user.Some? ==> r == RemoveAll(likes, user.value.id)
    ensures !isLiked && user.None? ==> r == likes
  {
    if isLiked then likes + [SelfId(user)]
    else if user.Some? then RemoveAll(likes, user.value.id)
    else likes
  }

  /** `handleLikePost` after a successful like request: only the posts whose
      `_id` matches change, and only in their `likes`. */
  function ApplyLike(posts: seq<ClientPost>, postId: Id, user: Option<ClientUser>, isLiked: bool)
    : (r: seq<ClientPost>)
    ensures |r| == |posts|
    ensures forall i :: 0 <= i < |posts| && posts[i].id != postId ==> r[i] == posts[i]
    ensures forall i :: 0 <= i < |posts| && posts[i].id == postId ==>
      r[i] == posts[i].(likes := UpdatedLikes(posts[i].likes, user, isLiked))
  {
    seq(|posts|, i requires 0 <= i < |posts| =>
      if posts[i].id == postId then posts[i].(likes := UpdatedLikes(posts[i].likes, user, isLiked))
      else posts[i])
  }

  /** `handleLikePost`: the reply's `isLiked` drives the update; a failed
      request (`None`) leaves the list as it was. */
  function HandleLike(posts: seq<ClientPost>, postId: Id, user: Option<ClientUser>, isLiked: Option<bool>)
    : (r: seq<ClientPost>)
    ensures isLiked.None? ==> r == posts
    ensures isLiked.Some? ==> r == ApplyLike(posts, postId, user, isLiked.value)
  {
    match isLiked
    case Some(liked) => ApplyLike(posts, postId, user, liked)
    case None => posts
  }

  /** Whether the heart is drawn filled: `post.likes.includes(user?.id || '')`. */
  predicate LikedByMe(p: ClientPost, user: Option<ClientUser>) {
    SelfId(user) in p.likes
  }

  /** The client's update and the server's toggle agree: if the client's
      `likes` for the post equal the stored ones before the request, they
      are equal again after the client applies the server's reply. The
      client sends the `_id` the server listed, which is already canonical. */
  lemma {:induction false} LikeUpdateAgrees(st: Store, u: ClientUser, postId: Id, posts: seq<ClientPost>, i: nat)
    requires IsObjectId(postId) && postId in st.posts && i < |posts| && posts[i].id == postId
    requires posts[i].likes == st.posts[postId].likes
    ensures var step := Posts.ToggleLike(st, u.id, postId);
      && step.response.Reply?
      && var after := HandleLike(posts, postId, Some(u), Some(step.response.body.isLiked));
      && after[i].likes == step.store.posts[postId].likes
      && (LikedByMe(after[i], Some(u)) <==> step.response.body.isLiked)
  {
    var step := Posts.ToggleLike(st, u.id, postId);
    var before := st.posts[postId].likes;
    if u.id in before {
      assert step.store.posts[postId].likes == RemoveAll(before, u.id);
    } else {
      assert step.store.posts[postId].likes == before + [u.id];
    }
  }

  /** Submitting a draft the server accepts puts the server's post, with the
      trimmed draft as content, at the head of the list. */
  lemma {:induction false} SubmitShowsTrimmedDraft(c: Composer, st: Store, me: Id, newId: Id, now: int)
    requires newId !in st.posts && !IsBlank(c.draft) && |Trim(c.draft)| <= MaxLength
    ensures var step := Posts.CreatePost(st, me, newId, Some(c.draft), None, now);
      && step.response.Reply?
      && var r := SubmitDraft(c, Some(View(newId, step.response.body)));
      && r.posts[0].content == Trim(c.draft) && r.posts[0].author == me && r.posts[0].likes == []
      && r.posts[1..] == c.posts && r.draft == ""
  {
  }

  /** A draft the counter shows as within its limit never trips the post
      schema's length check: once the server trims it, a non-blank draft with
      a non-negative counter is always stored. */
  lemma CounterAllowsCreate(d: string, st: Store, me: Id, newId: Id, now: int)
    requires newId !in st.posts && !IsBlank(d) && RemainingChars(d) >= 0
    ensures Posts.CreatePost(st, me, newId, Some(d), None, now).response.Reply?
  {
  }
}

=== FILE: http.dfy ===
/** HTTP responses as the route handlers produce them. */
module Http {

  /** The status codes the handlers use: 200, 201, 400, 401, 403, 404 and 500. */
  datatype Status = Ok | Created | BadRequest | Unauthorized | Forbidden | NotFound | ServerError

  /** A JSON reply: a success body, or an error status with its `message`. */
  datatype Response<+T> = Reply(status: Status, body: T) | Error(status: Status, message: string)

  /** The generic `catch` reply every handler sends when an exception escapes. */
  const ServerErrorMessage := "Server error"
}

=== FILE: listing.dfy ===
/** The query side of the post routes: `Post.find(filter).sort({ createdAt: -1 })`
    over the post collection, then `.skip(skip).limit(limit)` and the
    `page`/`limit`/`hasMore` arithmetic around it. */
module Listing {
  import opened Common
  import opened Text
  import opened Seqs
  import opened Http
  import opened PostSchema

  /** The `author` condition of a post query. */
  datatype AuthorFilter = AnyAuthor | AuthorIn(ids: set<Id>) {
    predicate Admits(author: Id) {
      AnyAuthor? || author in ids
    }
  }

  predicate AllStored(posts: map<Id, Post>, ids: seq<Id>) {
    forall i :: 0 <= i < |ids| ==> ids[i] in posts
  }

  predicate Distinct(ids: seq<Id>) {
    forall i, j :: 0 <= i < j < |ids| ==> ids[i] != ids[j]
  }

  /** Ordered by `createdAt` descending. */
  predicate NewestFirst(posts: map<Id, Post>, ids: seq<Id>)
    requires AllStored(posts, ids)
  {
    forall i, j :: 0 <= i < j < |ids| ==> posts[ids[i]].createdAt >= posts[ids[j]].createdAt
  }

  /** `ids` is a full answer of the sorted query: exactly the stored posts the
      filter admits, each once, newest first. The order among posts with equal
      `createdAt` is left open, as the database leaves it. */
  predicate IsListing(posts: map<Id, Post>, f: AuthorFilter, ids: seq<Id>) {
    && AllStored(posts, ids)
    && (forall i :: 0 <= i < |ids| ==> f.Admits(posts[ids[i]].author))
    && (forall k :: k in posts && f.Admits(posts[k].author) ==> k in ids)
    && Distinct(ids)
    && NewestFirst(posts, ids)
  }

  /** Inserts `k` into a newest-first list in front of the first post that is
      not newer than it. */
  function InsertNewest(posts: map<Id, Post>, ids: seq<Id>, k: Id): (r: seq<Id>)
    requires k in posts && AllStored(posts, ids)
    ensures |r| == |ids| + 1 && AllStored(posts, r)
    ensures forall x :: x in r <==> x in ids || x == k
  {
    if ids == [] then [k]
    else if posts[k].createdAt >= posts[ids[0]].createdAt then [k] + ids
    else [ids[0]] + InsertNewest(posts, ids[1..], k)
  }

  /** Inserting keeps a newest-first list newest first. */
  lemma {:induction false} InsertKeepsOrder(posts: map<Id, Post>, ids: seq<Id>, k: Id)
    requires k in posts && AllStored(posts, ids) && NewestFirst(posts, ids)
    ensures NewestFirst(posts, InsertNewest(posts, ids, k))
  {
    if ids != [] && posts[k].createdAt < posts[ids[0]].createdAt {
      var tail := ids[1..];
      InsertKeepsOrder(posts, tail, k);
      var rest := InsertNewest(posts, tail, k);
      var r := [ids[0]] + rest;
      assert r == InsertNewest(posts, ids, k);
      forall x | x in rest
        ensures posts[x].createdAt <= posts[ids[0]].createdAt
      {
        if x != k {
          var j :| 0 <= j < |tail| && tail[j] == x;
          assert ids[j + 1] == x;
        }
      }
      forall i, j | 0 <= i < j < |r|
        ensures posts[r[i]].createdAt >= posts[r[j]].createdAt
      {
        assert r[j] == rest[j - 1];
        if i > 0 {
          assert r[i] == rest[i - 1];
        }
      }
    }
  }

  /** Inserting a new id keeps a list free of duplicates. */
  lemma {:induction false} InsertKeepsDistinct(posts: map<Id, Post>, ids: seq<Id>, k: Id)
    requires k in posts && AllStored(posts, ids) && Distinct(ids) && k !in ids
    ensures Distinct(InsertNewest(posts, ids, k))
  {
    if ids != [] && posts[k].createdAt < posts[ids[0]].createdAt {
      var tail := ids[1..];
      InsertKeepsDistinct(posts, tail, k);
      var rest := InsertNewest(posts, tail, k);
      var r := [ids[0]] + rest;
      assert r == InsertNewest(posts, ids, k);
      assert ids[0] !in tail;
      forall i, j | 0 <= i < j < |r|
        ensures r[i] != r[j]
      {
        assert r[j] == rest[j - 1];
        if i > 0 {
          assert r[i] == rest[i - 1];
        }
      }
    }
  }

  /** Runs the sorted query over the whole collection. */
  method SelectNewestFirst(posts: map<Id, Post>, f: AuthorFilter) returns (ids: seq<Id>)
    ensures IsListing(posts, f, ids)
  {
    ids := [];
    var remaining := posts.Keys;
    while remaining != {}
      invariant remaining <= posts.Keys
      invariant AllStored(posts, ids)
      invariant forall x :: x in ids ==> x !in remaining && f.Admits(posts[x].author)
      invariant forall k :: k in posts && k !in remaining && f.Admits(posts[k].author) ==> k in ids
      invariant Distinct(ids) && NewestFirst(posts, ids)
      decreases remaining
    {
      var k :| k in remaining;
      if f.Admits(posts[k].author) {
        InsertKeepsOrder(posts, ids, k);
        InsertKeepsDistinct(posts, ids, k);
        ids := InsertNewest(posts, ids, k);
      }
      remaining := remaining - {k};
    }
  }

  /** `parseInt(query) || fallback`: the parsed number, or the fallback when
      the parameter is absent, unparseable (`NaN`) or zero. */
  function PageParam(query: Option<string>, fallback: int): (n: int)
    requires fallback != 0
    ensures n != 0
    ensures query.None? ==> n == fallback
    ensures ParseInt(query).Some? && ParseInt(query).value != 0 ==> n == ParseInt(query).value
    ensures ParseInt(query) == Some(0) || ParseInt(query).None? ==> n == fallback
  {
    match ParseInt(query)
    case Some(v) => if v == 0 then fallback else v
    case None => fallback
  }

  /** A decimal parameter such as `?page=3` is taken at its value. */
  lemma PageParamDecimal(n: nat, fallback: int)
    requires n > 0 && fallback != 0
    ensures PageParam(Some(ToDecimal(n)), fallback) == n
  {
    assert ToDecimal(n) + [] == ToDecimal(n);
    DecimalRoundTrip(n, []);
  }

  const DefaultPage := 1
  const DefaultLimit := 10

  /** One post of a listing reply, with its id. */
  datatype PostEntry = PostEntry(id: Id, post: Post)

  /** The `{ posts, page, hasMore }` reply of the listing routes. */
  datatype PageReply = PageReply(posts: seq<PostEntry>, page: int, hasMore: bool)

  function Entries(posts: map<Id, Post>, ids: seq<Id>): (es: seq<PostEntry>)
    requires AllStored(posts, ids)
    ensures |es| == |ids|
    ensures forall i :: 0 <= i < |ids| ==> es[i].id == ids[i] && es[i].post == posts[ids[i]]
  {
    seq(|ids|, i requires 0 <= i < |ids| => PostEntry(ids[i], posts[ids[i]]))
  }

  /** `skip = (page - 1) * limit`, then `.skip(skip).limit(limit)` over the
      sorted answer and `hasMore: posts.length === limit`. A negative skip is
      refused by the database, which the handler's `catch` turns into a 500;
      a negative limit makes the driver return at most `-limit` documents. */
  function Paged(posts: map<Id, Post>, ids: seq<Id>, page: int, limit: int): (r: Response<PageReply>)
    requires AllStored(posts, ids)
    ensures r.Error? <==> (page - 1) * limit < 0
    ensures r.Error? ==> r == Error(ServerError, ServerErrorMessage)
    ensures r.Reply? ==> r.status == Ok && r.body.page == page
    ensures r.Reply? ==> |r.body.posts| <= if limit < 0 then -limit else limit
    ensures r.Reply? ==>
      var skip := (page - 1) * limit;
      |r.body.posts| == if skip >= |ids| then 0 else Min(if limit < 0 then -limit else limit, |ids| - skip)
    ensures r.Reply? ==> (r.body.hasMore <==> |r.body.posts| == limit)
    ensures r.Reply? ==> forall i :: 0 <= i < |r.body.posts| ==>
      var j := (page - 1) * limit + i;
      j < |ids| && r.body.posts[i] == PostEntry(ids[j], posts[ids[j]])
    ensures r.Reply? && 0 < limit && (page - 1) * limit + limit <= |ids| ==> |r.body.posts| == limit
  {
    var skip := (page - 1) * limit;
    if skip < 0 then Error(ServerError, ServerErrorMessage)
    else
      var count := if limit < 0 then -limit else limit;
      var shown := Window(ids, skip, count);
      Reply(Ok, PageReply(Entries(posts, shown), page, |shown| == limit))
  }

  /** A page of a full listing inherits the listing's guarantees: only
      admitted posts, each as stored, newest first. */
  lemma PagedFromListing(posts: map<Id, Post>, f: AuthorFilter, ids: seq<Id>, page: int, limit: int)
    requires IsListing(posts, f, ids)
    ensures var r := Paged(posts, ids, page, limit);
      r.Reply? ==>
        && (forall i :: 0 <= i < |r.body.posts| ==>
              var e := r.body.posts[i]; e.id in posts && e.post == posts[e.id] && f.Admits(e.post.author))
        && (forall i, j :: 0 <= i < j < |r.body.posts| ==>
              r.body.posts[i].post.createdAt >= r.body.posts[j].post.createdAt)
  {
    var r := Paged(posts, ids, page, limit);
    if r.Reply? {
      var skip := (page - 1) * limit;
      forall i, j | 0 <= i < j < |r.body.posts|
        ensures r.body.posts[i].post.createdAt >= r.body.posts[j].post.createdAt
      {
        assert r.body.posts[i].post == posts[ids[skip + i]];
        assert r.body.posts[j].post == posts[ids[skip + j]];
      }
    }
  }
}

=== FILE: post_schema.dfy ===
/** The post document and its schema constraints: required fields, the
    280-character limits and the defaults applied at creation. */
module PostSchema {
  import opened Common

  /** `maxlength` of both post content and comment text. */
  const MaxLength := 280

  /** One entry of a post's `comments` array. */
  datatype Comment = Comment(user: Id, text: string, createdAt: int)

  /** A stored post. `author` is a required reference, so it is always
      present; `likes` is the list of user ids that liked the post. */
  datatype Post = Post(
    author: Id,
    content: string,
    image: string,
    likes: seq<Id>,
    comments: seq<Comment>,
    createdAt: int)

  /** A required string with `maxlength: 280`: Mongoose's `required` rejects
      the empty string, `maxlength` anything longer than 280. */
  predicate ValidText(s: string) {
    0 < |s| <= MaxLength
  }

  predicate ValidComment(c: Comment) {
    ValidText(c.text)
  }

  /** What `save()` accepts: content and every comment text within the
      limits. */
  predicate ValidPost(p: Post) {
    ValidText(p.content) && forall i :: 0 <= i < |p.comments| ==> ValidComment(p.comments[i])
  }

  /** A new post document: `image` defaults to the empty string, `likes` and
      `comments` start empty and `createdAt` defaults to the creation time. */
  function NewPost(author: Id, content: string, image: Option<string>, now: int): (p: Post)
    ensures p.author == author && p.content == content
    ensures p.image == image.GetOr("")
    ensures p.likes == [] && p.comments == [] && p.createdAt == now
    ensures ValidPost(p) <==> ValidText(content)
  {
    Post(author, content, image.GetOr(""), [], [], now)
  }

  /** A new comment; its `createdAt` is the creation time. */
  function NewComment(user: Id, text: string, now: int): (c: Comment)
    ensures c.user == user && c.text == text && c.createdAt == now
    ensures ValidComment(c) <==> ValidText(text)
  {
    Comment(user, text, now)
  }

  /** Appending a valid comment to a valid post gives a valid post. */
  lemma AppendCommentValid(p: Post, c: Comment)
    requires ValidPost(p) && ValidComment(c)
    ensures ValidPost(p.(comments := p.comments + [c]))
  {
  }
}

=== FILE: posts.dfy ===
/** The post routes: create, like/unlike, comment, delete, and the feed,
    timeline and per-user listings. Every handler is one atomic step from a
    store and a request to a store and a reply. */
module Posts {
  import opened Common
  import opened Text
  import opened Seqs
  import opened Http
  import opened PostSchema
  import opened Records
  import opened Listing

  const ContentRequired := "Post content is required"
  const CommentRequired := "Comment text is required"
  const PostNotFound := "Post not found"
  const NotAuthorizedToDelete := "Not authorized to delete this post"
  const PostLiked := "Post liked"
  const PostUnliked := "Post unliked"
  const PostDeleted := "Post deleted successfully"

  /** `POST /posts`: content missing or blank is a 400; otherwise the trimmed
      content is stored as a new post by the requester. Content longer than
      280 characters after trimming fails schema validation at `save()`, which
      the handler's `catch` reports as a 500. `newId` is the id the database
      assigns; `now` is the clock reading. */
  function CreatePost(st: Store, requester: Id, newId: Id, content: Option<string>,
                      image: Option<string>, now: int): (r: Step<Post>)
    requires newId !in st.posts
    ensures IsMissingText(content) ==> r == Step(st, Error(BadRequest, ContentRequired))
    ensures !IsMissingText(content) && |Trim(content.value)| > MaxLength ==>
      r == Step(st, Error(ServerError, ServerErrorMessage))
    ensures r.response.Reply? <==> !IsMissingText(content) && |Trim(content.value)| <= MaxLength
    ensures r.response.Reply? ==>
      && r.response.status == Created
      && var p := r.response.body;
      && p.author == requester
      && p.content == Trim(content.value)
      && p.image == image.GetOr("")
      && p.likes == [] && p.comments == [] && p.createdAt == now
      && ValidPost(p)
      && r.store == st.(posts := st.posts[newId := p])
  {
    if IsMissingText(content) then Step(st, Error(BadRequest, ContentRequired))
    else
      var post := NewPost(requester, Trim(content.value), Some(image.GetOr("")), now);
      if !ValidPost(post) then Step(st, Error(ServerError, ServerErrorMessage))
      else Step(st.(posts := st.posts[newId := post]), Reply(Created, post))
  }

  /** The `{ message, isLiked, likesCount }` reply of the like route. */
  datatype LikeReply = LikeReply(message: string, isLiked: bool, likesCount: nat)

  /** The like handler once `findById` has cast the path parameter to
      `postId`: toggles the requester's membership in the post's `likes`;
      nothing but that one list changes. */
  function LikeById(st: Store, requester: Id, postId: Id): (r: Step<LikeReply>)
    ensures postId !in st.posts ==> r == Step(st, Error(NotFound, PostNotFound))
    ensures postId in st.posts ==>
      var before := st.posts[postId].likes;
      && r.response.Reply? && r.response.status == Ok
      && postId in r.store.posts
      && var after := r.store.posts[postId].likes;
      && r.store == st.(posts := st.posts[postId := st.posts[postId].(likes := after)])
      && (requester in before ==> requester !in after && multiset(after) == multiset(before)[requester := 0])
      && (requester in before ==> after == RemoveAll(before, requester))
      && (requester !in before ==> after == before + [requester])
      && r.response.body.isLiked == (requester !in before)
      && r.response.body.likesCount == |after|
      && r.response.body.message == (if requester in before then PostUnliked else PostLiked)
  {
    if postId !in st.posts then Step(st, Error(NotFound, PostNotFound))
    else
      var post := st.posts[postId];
      var wasLiked := requester in post.likes;
      var likes := Toggle(post.likes, requester);
      Step(st.(posts := st.posts[postId := post.(likes := likes)]),
           Reply(Ok, LikeReply(if wasLiked then PostUnliked else PostLiked, !wasLiked, |likes|)))
  }

  /** `POST /posts/:postId/like`: `findById` casts the path parameter, so
      any spelling of a stored id finds the post, and a parameter that is not
      24 hex digits makes it throw, which the `catch` reports as a 500. */
  function ToggleLike(st: Store, requester: Id, param: string): (r: Step<LikeReply>)
    ensures CastId(param).None? ==> r == Step(st, Error(ServerError, ServerErrorMessage))
    ensures CastId(param).Some? ==> r == LikeById(st, requester, CastId(param).value)
    ensures r.response.Reply? <==> CastId(param).Some? && CastId(param).value in st.posts
  {
    match CastId(param)
    case None => Step(st, Error(ServerError, ServerErrorMessage))
    case Some(postId) => LikeById(st, requester, postId)
  }

  /** Liking a post and then unliking it, through any spelling of its id,
      restores the store exactly. */
  lemma {:induction false} LikeTwiceRestores(st: Store, requester: Id, param: string)
    requires CastId(param).Some? && CastId(param).value in st.posts
    requires requester !in st.posts[CastId(param).value].likes
    ensures ToggleLike(ToggleLike(st, requester, param).store, requester, param).store == st
  {
    var postId := CastId(param).value;
    var post := st.posts[postId];
    ToggleTwice(post.likes, requester);
    var once := ToggleLike(st, requester, param).store;
    assert once.posts[postId].likes == post.likes + [requester];
    var twice := ToggleLike(once, requester, param).store;
    assert twice.posts[postId] == post;
    assert twice.posts == st.posts;
  }

  /** The comment handler once `findById` has cast the path parameter to
      `postId`: text missing or blank is a 400, a missing post a 404;
      otherwise one comment with the trimmed text is appended after the
      existing ones and returned. Text longer than 280 characters fails
      validation at `save()`: a 500. */
  function CommentById(st: Store, requester: Id, postId: Id, text: Option<string>, now: int): (r: Step<Comment>)
    ensures IsMissingText(text) ==> r == Step(st, Error(BadRequest, CommentRequired))
    ensures !IsMissingText(text) && postId !in st.posts ==> r == Step(st, Error(NotFound, PostNotFound))
    ensures !IsMissingText(text) && postId in st.posts && |Trim(text.value)| > MaxLength ==>
      r == Step(st, Error(ServerError, ServerErrorMessage))
    ensures r.response.Reply? <==>
      !IsMissingText(text) && postId in st.posts && |Trim(text.value)| <= MaxLength
    ensures r.response.Reply? ==>
      && r.response.status == Created
      && var c := r.response.body;
      && c.user == requester && c.text == Trim(text.value) && c.createdAt == now
      && ValidComment(c)
      && var post := st.posts[postId];
      && r.store == st.(posts := st.posts[postId := post.(comments := post.comments + [c])])
  {
    if IsMissingText(text) then Step(st, Error(BadRequest, CommentRequired))
    else if postId !in st.posts then Step(st, Error(NotFound, PostNotFound))
    else
      var post := st.posts[postId];
      var comment := NewComment(requester, Trim(text.value), now);
      if !ValidComment(comment) then Step(st, Error(ServerError, ServerErrorMessage))
      else
        var updated := post.(comments := post.comments + [comment]);
        Step(st.(posts := st.posts[postId := updated]),
             Reply(Created, updated.comments[|updated.comments| - 1]))
  }

  /** `POST /posts/:postId/comment`: the text is checked before the lookup,
      so blank text is a 400 whatever the parameter; then a parameter
      `findById` cannot cast is a 500, and any spelling of a stored id finds
      the post. */
  function AddComment(st: Store, requester: Id, param: string, text: Option<string>, now: int): (r: Step<Comment>)
    ensures IsMissingText(text) ==> r == Step(st, Error(BadRequest, CommentRequired))
    ensures !IsMissingText(text) && CastId(param).None? ==> r == Step(st, Error(ServerError, ServerErrorMessage))
    ensures CastId(param).Some? ==> r == CommentById(st, requester, CastId(param).value, text, now)
    ensures r.response.Reply? <==>
      !IsMissingText(text) && CastId(param).Some? && CastId(param).value in st.posts
      && |Trim(text.value)| <= MaxLength
  {
    if IsMissingText(text) then Step(st, Error(BadRequest, CommentRequired))
    else match CastId(param)
      case None => Step(st, Error(ServerError, ServerErrorMessage))
      case Some(postId) => CommentById(st, requester, postId, text, now)
  }

  /** The delete handler once `findById` has cast the path parameter to
      `postId`: 404 when absent, 403 unless the requester is the author;
      otherwise exactly that post is removed. */
  function DeleteById(st: Store, requester: Id, postId: Id): (r: Step<string>)
    ensures postId !in st.posts ==> r == Step(st, Error(NotFound, PostNotFound))
    ensures postId in st.posts && st.posts[postId].author != requester ==>
      r == Step(st, Error(Forbidden, NotAuthorizedToDelete))
    ensures r.response.Reply? <==> postId in st.posts && st.posts[postId].author == requester
    ensures r.response.Reply? ==>
      && r.response == Reply(Ok, PostDeleted)
      && r.store.users == st.users
      && r.store.posts.Keys == st.posts.Keys - {postId}
      && forall k :: k in r.store.posts ==> r.store.posts[k] == st.posts[k]
  {
    if postId !in st.posts then Step(st, Error(NotFound, PostNotFound))
    else if st.posts[postId].author != requester then Step(st, Error(Forbidden, NotAuthorizedToDelete))
    else Step(st.(posts := st.posts - {postId}), Reply(Ok, PostDeleted))
  }

  /** `DELETE /posts/:postId`: a parameter `findById` cannot cast is a 500;
      any spelling of a stored id finds the post. */
  function DeletePost(st: Store, requester: Id, param: string): (r: Step<string>)
    ensures CastId(param).None? ==> r == Step(st, Error(ServerError, ServerErrorMessage))
    ensures CastId(param).Some? ==> r == DeleteById(st, requester, CastId(param).value)
    ensures r.response.Reply? <==>
      CastId(param).Some? && CastId(param).value in st.posts && st.posts[CastId(param).value].author == requester
  {
    match CastId(param)
    case None => Step(st, Error(ServerError, ServerErrorMessage))
    case Some(postId) => DeleteById(st, requester, postId)
  }

  /** The schema invariant holds after every post route. */
  lemma {:induction false} PostRoutesKeepSchema(st: Store, requester: Id, newId: Id, param: string,
                                                text: Option<string>, image: Option<string>, now: int)
    requires PostsValid(st) && newId !in st.posts
    ensures PostsValid(CreatePost(st, requester, newId, text, image, now).store)
    ensures PostsValid(ToggleLike(st, requester, param).store)
    ensures PostsValid(AddComment(st, requester, param, text, now).store)
    ensures PostsValid(DeletePost(st, requester, param).store)
  {
    CreateKeepsSchema(st, requester, newId, text, image, now);
    LikeKeepsSchema(st, requester, param);
    CommentKeepsSchema(st, requester, param, text, now);
    DeleteKeepsSchema(st, requester, param);
  }

  lemma CreateKeepsSchema(st: Store, requester: Id, newId: Id, content: Option<string>,
                          image: Option<string>, now: int)
    requires PostsValid(st) && newId !in st.posts
    ensures PostsValid(CreatePost(st, requester, newId, content, image, now).store)
  {
  }

  lemma LikeKeepsSchema(st: Store, requester: Id, param: string)
    requires PostsValid(st)
    ensures PostsValid(ToggleLike(st, requester, param).store)
  {
  }

  lemma CommentKeepsSchema(st: Store, requester: Id, param: string, text: Option<string>, now: int)
    requires PostsValid(st)
    ensures PostsValid(AddComment(st, requester, param, text, now).store)
  {
    var r := AddComment(st, requester, param, text, now);
    if r.response.Reply? {
      AppendCommentValid(st.posts[CastId(param).value], r.response.body);
    }
  }

  lemma DeleteKeepsSchema(st: Store, requester: Id, param: string)
    requires PostsValid(st)
    ensures PostsValid(DeletePost(st, requester, param).store)
  {
  }

  /** The authors whose posts make up a user's feed: those they follow and
      themselves. */
  function FeedAuthors(u: User, self: Id): (ids: set<Id>)
    ensures forall a :: a in ids <==> a in u.following || a == self
  {
    (set a | a in u.following) + {self}
  }

  /** `GET /posts/feed`: the requester's page of posts by the users they follow
      and by themselves, newest first. */
  method Feed(st: Store, requester: Id, pageQuery: Option<string>, limitQuery: Option<string>)
    returns (r: Response<PageReply>)
    ensures requester !in st.users ==> r == Error(NotFound, UserNotFound)
    ensures requester in st.users ==>
      exists ids :: IsListing(st.posts, AuthorIn(FeedAuthors(st.users[requester], requester)), ids)
        && r == Paged(st.posts, ids, PageParam(pageQuery, DefaultPage), PageParam(limitQuery, DefaultLimit))
    ensures r.Reply? ==> forall i :: 0 <= i < |r.body.posts| ==>
      var p := r.body.posts[i].post;
      p.author == requester || p.author in st.users[requester].following
  {
    var page := PageParam(pageQuery, DefaultPage);
    var limit := PageParam(limitQuery, DefaultLimit);
    if requester !in st.users {
      return Error(NotFound, UserNotFound);
    }
    var f := AuthorIn(FeedAuthors(st.users[requester], requester));
    var ids := SelectNewestFirst(st.posts, f);
    r := Paged(st.posts, ids, page, limit);
    PagedFromListing(st.posts, f, ids, page, limit);
  }

  /** `GET /posts/timeline`: a page of all posts, newest first. */
  method Timeline(st: Store, pageQuery: Option<string>, limitQuery: Option<string>)
    returns (r: Response<PageReply>)
    ensures exists ids ::
      && IsListing(st.posts, AnyAuthor, ids)
      && r == Paged(st.posts, ids, PageParam(pageQuery, DefaultPage), PageParam(limitQuery, DefaultLimit))
  {
    var page := PageParam(pageQuery, DefaultPage);
    var limit := PageParam(limitQuery, DefaultLimit);
    var ids := SelectNewestFirst(st.posts, AnyAuthor);
    r := Paged(st.posts, ids, page, limit);
  }

  /** `GET /posts/user/:username`: a page of the posts of the user with that
      username (some such user, as `findOne` picks), or 404. */
  method UserPosts(st: Store, username: string, pageQuery: Option<string>, limitQuery: Option<string>)
    returns (r: Response<PageReply>)
    ensures (forall k :: k in st.users ==> st.users[k].username != username) ==>
      r == Error(NotFound, UserNotFound)
    ensures (exists k :: k in st.users && st.users[k].username == username) ==> exists k, ids ::
      && k in st.users && st.users[k].username == username
      && IsListing(st.posts, AuthorIn({k}), ids)
      && r == Paged(st.posts, ids, PageParam(pageQuery, DefaultPage), PageParam(limitQuery, DefaultLimit))
    ensures r.Reply? ==> exists k, ids ::
      && k in st.users && st.users[k].username == username
      && IsListing(st.posts, AuthorIn({k}), ids)
      && r == Paged(st.posts, ids, PageParam(pageQuery, DefaultPage), PageParam(limitQuery, DefaultLimit))
    ensures r.Reply? ==> forall i :: 0 <= i < |r.body.posts| ==>
      var a := r.body.posts[i].post.author; a in st.users && st.users[a].username == username
  {
    var page := PageParam(pageQuery, DefaultPage);
    var limit := PageParam(limitQuery, DefaultLimit);
    if forall k :: k in st.users ==> st.users[k].username != username {
      return Error(NotFound, UserNotFound);
    }
    var k :| k in st.users && st.users[k].username == username;
    var ids := SelectNewestFirst(st.posts, AuthorIn({k}));
    r := Paged(st.posts, ids, page, limit);
    PagedFromListing(st.posts, AuthorIn({k}), ids, page, limit);
    assert r.Reply? ==> forall i :: 0 <= i < |r.body.posts| ==> r.body.posts[i].post.author == k;
  }
}

=== FILE: records.dfy ===
/** The in-memory store standing for the two database collections, and the
    invariants the route handlers are expected to keep. */
module Records {
  import opened Common
  import opened Text
  import opened Http
  import opened PostSchema

  const UserNotFound := "User not found"

  /** A user document. `password` holds the stored digest. */
  datatype User = User(
    username: string,
    email: string,
    password: string,
    fullName: string,
    bio: string,
    profilePicture: string,
    followers: seq<Id>,
    following: seq<Id>,
    createdAt: int)

  /** Both collections, keyed by document id. */
  datatype Store = Store(users: map<Id, User>, posts: map<Id, Post>)

  /** What one request does: the store afterwards and the reply sent. */
  datatype Step<+T> = Step(store: Store, response: Response<T>)

  /** Every stored post satisfies the post schema. */
  predicate PostsValid(st: Store) {
    forall k :: k in st.posts ==> ValidPost(st.posts[k])
  }

  /** The follow graph is mirrored: `a` lists `b` among its followers exactly
      when `b` lists `a` among the users it follows. */
  predicate FollowMirror(st: Store) {
    forall a, b :: a in st.users && b in st.users ==>
      (a in st.users[b].followers <==> b in st.users[a].following)
  }

  /** No two users share an email. */
  predicate UniqueEmails(st: Store) {
    forall a, b :: a in st.users && b in st.users && a != b ==>
      st.users[a].email != st.users[b].email
  }

  /** No two users share a username. */
  predicate UniqueUsernames(st: Store) {
    forall a, b :: a in st.users && b in st.users && a != b ==>
      st.users[a].username != st.users[b].username
  }

  /** An id no document holds and no follow list mentions: what a freshly
      generated ObjectId is. */
  predicate FreshUserId(st: Store, id: Id) {
    && id !in st.users
    && forall k :: k in st.users ==> id !in st.users[k].followers && id !in st.users[k].following
  }

  /** The canonical spelling of an ObjectId: 24 lower-case hexadecimal
      digits, as `_id.toString()` writes it. */
  predicate IsObjectId(s: string) {
    |s| == 24 && forall i :: 0 <= i < |s| ==> IsDigitIn(s[i], 16) && !IsUpper(s[i])
  }

  /** The cast `findById` applies to a route parameter: 24 hexadecimal
      digits in either case name the id with the same digits in lower case;
      anything else fails to cast. */
  function CastId(param: string): (r: Option<Id>)
    ensures r.Some? ==> IsObjectId(r.value) && |param| == 24
    ensures r.Some? ==> forall i :: 0 <= i < 24 ==> r.value[i] == LowerChar(param[i])
    ensures IsObjectId(param) <==> r == Some(param)
    ensures r.Some? <==> |param| == 24 && forall i :: 0 <= i < 24 ==> IsDigitIn(param[i], 16)
  {
    if |param| == 24 && forall i :: 0 <= i < 24 ==> IsDigitIn(param[i], 16) then
      var id := ToLower(param);
      assert forall i :: 0 <= i < 24 ==> IsDigitIn(id[i], 16);
      assert IsObjectId(param) ==> id == param;
      Some(id)
    else None
  }
}

=== FILE: seqs.dfy ===
/** The list manipulations the handlers perform on id arrays: removing every
    occurrence with `filter`, appending with `push`, and the skip/limit window
    of a query. */
module Seqs {

  /** `s.filter(y => y !== x)`: every occurrence of `x` removed, every other
      element kept with its multiplicity. */
  function RemoveAll<T(==, !new)>(s: seq<T>, x: T): (r: seq<T>)
    ensures x !in r
    ensures forall y :: y in r <==> y in s && y != x
    ensures multiset(r) == multiset(s)[x := 0]
  {
    if s == [] then []
    else
      assert s == [s[0]] + s[1..];
      (if s[0] == x then [] else [s[0]]) + RemoveAll(s[1..], x)
  }

  /** Removing an element that is not there changes nothing. */
  lemma {:induction false} RemoveAllAbsent<T(!new)>(s: seq<T>, x: T)
    requires x !in s
    ensures RemoveAll(s, x) == s
  {
    if s != [] {
      RemoveAllAbsent(s[1..], x);
    }
  }

  /** Removal distributes over concatenation, so the surviving elements keep
      their relative order. */
  lemma {:induction false} RemoveAllConcat<T(!new)>(a: seq<T>, b: seq<T>, x: T)
    ensures RemoveAll(a + b, x) == RemoveAll(a, x) + RemoveAll(b, x)
  {
    if a != [] {
      var head := if a[0] == x then [] else [a[0]];
      assert (a + b)[0] == a[0];
      assert (a + b)[1..] == a[1..] + b;
      calc {
        RemoveAll(a + b, x);
        head + RemoveAll(a[1..] + b, x);
        { RemoveAllConcat(a[1..], b, x); }
        head + (RemoveAll(a[1..], x) + RemoveAll(b, x));
        (head + RemoveAll(a[1..], x)) + RemoveAll(b, x);
      }
    } else {
      assert a + b == b;
    }
  }

  /** Removing `x` after appending it gives what removing it before gives. */
  lemma RemoveAllAppended<T(!new)>(s: seq<T>, x: T)
    ensures RemoveAll(s + [x], x) == RemoveAll(s, x)
  {
    RemoveAllConcat(s, [x], x);
    assert RemoveAll([x], x) == [];
  }

  /** The membership toggle shared by likes and follows: remove every
      occurrence when present, otherwise append exactly one at the end. */
  function Toggle<T(==, !new)>(s: seq<T>, x: T): (r: seq<T>)
    ensures x in s ==> x !in r && multiset(r) == multiset(s)[x := 0]
    ensures x in s ==> r == RemoveAll(s, x)
    ensures x !in s ==> r == s + [x]
    ensures forall y :: y != x ==> (y in r <==> y in s)
  {
    if x in s then RemoveAll(s, x) else s + [x]
  }

  /** Toggling an absent element twice restores the list exactly. */
  lemma {:induction false} ToggleTwice<T(!new)>(s: seq<T>, x: T)
    requires x !in s
    ensures Toggle(Toggle(s, x), x) == s
  {
    RemoveAllAppended(s, x);
    RemoveAllAbsent(s, x);
  }

  function Min(a: int, b: int): int {
    if a <= b then a else b
  }

  /** `.skip(skip).limit(count)` over an already ordered result: at most
      `count` consecutive elements starting at position `skip`. */
  function Window<T>(s: seq<T>, skip: nat, count: nat): (r: seq<T>)
    ensures |r| <= count
    ensures skip + count <= |s| ==> |r| == count
    ensures skip >= |s| ==> r == []
    ensures |r| == if skip >= |s| then 0 else Min(count, |s| - skip)
    ensures forall i :: 0 <= i < |r| ==> skip + i < |s| && r[i] == s[skip + i]
  {
    if skip >= |s| then [] else s[skip..Min(|s|, skip + count)]
  }
}

=== FILE: text.dfy ===
/** The JavaScript string primitives the handlers rely on: `trim`,
    `toLowerCase`, `parseInt` and `Array.prototype.join`, plus the request-body
    truthiness test `!value`. */
module Text {
  import opened Common

  /** A code point that `String.prototype.trim` strips: the ECMAScript
      WhiteSpace and LineTerminator characters. */
  predicate IsSpace(c: char) {
    var n := c as int;
    n == 0x09 || n == 0x0A || n == 0x0B || n == 0x0C || n == 0x0D || n == 0x20
    || n == 0xA0 || n == 0x1680 || (0x2000 <= n <= 0x200A) || n == 0x2028
    || n == 0x2029 || n == 0x202F || n == 0x205F || n == 0x3000 || n == 0xFEFF
  }

  /** True when every character is whitespace (the empty string included). */
  predicate IsBlank(s: string) {
    forall i :: 0 <= i < |s| ==> IsSpace(s[i])
  }

  /** True when the string neither starts nor ends with whitespace. */
  predicate IsTrimmed(s: string) {
    s == [] || (!IsSpace(s[0]) && !IsSpace(s[|s| - 1]))
  }

  /** How many whitespace characters `s` starts with. */
  function LeadingSpace(s: string): (n: nat)
    ensures n <= |s|
    ensures forall k :: 0 <= k < n ==> IsSpace(s[k])
    ensures n < |s| ==> !IsSpace(s[n])
  {
    if |s| > 0 && IsSpace(s[0]) then 1 + LeadingSpace(s[1..]) else 0
  }

  /** How many whitespace characters `s` ends with. */
  function TrailingSpace(s: string): (n: nat)
    ensures n <= |s|
    ensures forall k :: |s| - n <= k < |s| ==> IsSpace(s[k])
    ensures n < |s| ==> !IsSpace(s[|s| - n - 1])
  {
    if |s| > 0 && IsSpace(s[|s| - 1]) then 1 + TrailingSpace(s[..|s| - 1]) else 0
  }

  /** `r` is the infix of `s` starting at `i`, and only whitespace lies
      around it. */
  predicate CutsOnlySpace(s: string, i: nat, r: string) {
    && i + |r| <= |s|
    && (forall k :: 0 <= k < |r| ==> r[k] == s[i + k])
    && (forall k :: 0 <= k < i ==> IsSpace(s[k]))
    && (forall k :: i + |r| <= k < |s| ==> IsSpace(s[k]))
  }

  /** `String.prototype.trim`: the infix of `s` that neither starts nor ends
      with whitespace, with only whitespace cut on either side. */
  function Trim(s: string): (r: string)
    ensures IsTrimmed(r)
    ensures CutsOnlySpace(s, LeadingSpace(s), r)
    ensures r == [] <==> IsBlank(s)
  {
    var i := LeadingSpace(s);
    if i == |s| then [] else s[i..|s| - TrailingSpace(s)]
  }

  /** Trimming a string that is already trimmed changes nothing. */
  lemma {:induction false} TrimmedIsFixed(s: string)
    requires IsTrimmed(s)
    ensures Trim(s) == s
  {
    if s != [] {
      assert LeadingSpace(s) == 0 && TrailingSpace(s) == 0;
    }
  }

  /** `trim` is idempotent. */
  lemma TrimIdempotent(s: string)
    ensures Trim(Trim(s)) == Trim(s)
  {
    TrimmedIsFixed(Trim(s));
  }

  predicate IsUpper(c: char) {
    'A' <= c <= 'Z'
  }

  /** Lower-case of one character; only the ASCII letters A-Z are mapped. */
  function LowerChar(c: char): (d: char)
    ensures !IsUpper(d)
    ensures IsUpper(c) ==> d as int == c as int + 32
    ensures IsSpace(d) <==> IsSpace(c)
    ensures !IsUpper(c) ==> d == c
  {
    if IsUpper(c) then (c as int + 32) as char else c
  }

  /** `String.prototype.toLowerCase` restricted to ASCII letters: no upper-case
      letter remains and every other character is kept in place. */
  function ToLower(s: string): (r: string)
    ensures |r| == |s|
    ensures forall i :: 0 <= i < |r| ==> !IsUpper(r[i])
    ensures forall i :: 0 <= i < |s| && !IsUpper(s[i]) ==> r[i] == s[i]
    ensures forall i :: 0 <= i < |s| ==> r[i] == LowerChar(s[i])
  {
    seq(|s|, i requires 0 <= i < |s| => LowerChar(s[i]))
  }

  /** Lower-casing neither creates nor removes whitespace. */
  lemma LowerKeepsBlank(s: string)
    ensures IsBlank(ToLower(s)) <==> IsBlank(s)
  {
    var l := ToLower(s);
    assert forall i :: 0 <= i < |s| ==> (IsSpace(l[i]) <==> IsSpace(s[i]));
  }

  /** Lower-casing keeps the leading whitespace count. */
  lemma {:induction false} LowerKeepsLeadingSpace(s: string)
    ensures LeadingSpace(ToLower(s)) == LeadingSpace(s)
  {
    if |s| > 0 && IsSpace(s[0]) {
      assert ToLower(s)[1..] == ToLower(s[1..]);
      LowerKeepsLeadingSpace(s[1..]);
    }
  }

  /** Email normalisation used by both register and login: `toLowerCase()`
      followed by `trim()`. The result is the lower-cased email with the
      surrounding whitespace cut, starting where the email's own leading
      whitespace ends. */
  function NormalizeEmail(email: string): (r: string)
    ensures IsTrimmed(r)
    ensures forall i :: 0 <= i < |r| ==> !IsUpper(r[i])
    ensures r == [] <==> IsBlank(email)
    ensures CutsOnlySpace(ToLower(email), LeadingSpace(email), r)
  {
    LowerKeepsBlank(email);
    LowerKeepsLeadingSpace(email);
    Trim(ToLower(email))
  }

  /** Two characters that are the same letter up to ASCII case. */
  predicate SameLetter(a: char, b: char) {
    || a == b
    || (IsUpper(a) && b as int == a as int + 32)
    || (IsUpper(b) && a as int == b as int + 32)
  }

  /** Emails that differ only in the case of their letters normalise to the
      same text, so a login email matches the stored one whatever its case. */
  lemma {:induction false} NormalizeIgnoresCase(a: string, b: string)
    requires |a| == |b|
    requires forall i :: 0 <= i < |a| ==> SameLetter(a[i], b[i])
    ensures NormalizeEmail(a) == NormalizeEmail(b)
  {
    assert ToLower(a) == ToLower(b);
  }

  /** Normalising an already normalised email changes nothing. */
  lemma {:induction false} NormalizeEmailIdempotent(email: string)
    ensures NormalizeEmail(NormalizeEmail(email)) == NormalizeEmail(email)
  {
    var n := NormalizeEmail(email);
    assert ToLower(n) == n;
    TrimmedIsFixed(n);
  }

  /** JavaScript truthiness of an optional string body field: present and
      non-empty. */
  predicate IsPresent(field: Option<string>) {
    field.Some? && field.value != ""
  }

  /** The handlers' "missing or empty after trim" test:
      `!value || value.trim().length === 0`. */
  predicate IsMissingText(field: Option<string>) {
    field.None? || IsBlank(field.value)
  }

  /** The summed lengths of the parts. */
  function TotalLength(parts: seq<string>): nat {
    if |parts| == 0 then 0 else TotalLength(parts[..|parts| - 1]) + |parts[|parts| - 1]|
  }

  /** `Array.prototype.join(sep)`: the parts in order with `sep` between
      neighbours, so the first part opens the result and the length is the
      parts' lengths plus one separator per gap. */
  function Join(parts: seq<string>, sep: string): (r: string)
    ensures |parts| == 0 ==> r == ""
    ensures |parts| == 1 ==> r == parts[0]
    ensures |parts| > 0 ==> parts[0] <= r
    ensures |parts| > 0 ==> |r| == TotalLength(parts) + (|parts| - 1) * |sep|
  {
    if |parts| == 0 then ""
    else if |parts| == 1 then parts[0]
    else
      var init := parts[..|parts| - 1];
      assert init[0] == parts[0];
      Join(init, sep) + sep + parts[|parts| - 1]
  }

  /** Appending a part to a non-empty list appends a separator and the part. */
  lemma JoinSnoc(p: seq<string>, x: string, sep: string)
    requires |p| > 0
    ensures Join(p + [x], sep) == Join(p, sep) + sep + x
  {
    assert (p + [x])[..|p|] == p;
  }

  /** Moves the brackets of a five-piece concatenation. */
  lemma Regroup(x: string, sep: string, y: string, z: string)
    ensures x + sep + y + sep + z == x + sep + (y + sep + z)
  {
  }

  /** Joining two non-empty runs of parts is joining each and putting one
      separator between them; with `Join` of a single part being that part,
      this pins the result down to the parts themselves, in order. */
  lemma {:induction false} JoinConcat(a: seq<string>, b: seq<string>, sep: string)
    requires |a| > 0 && |b| > 0
    ensures Join(a + b, sep) == Join(a, sep) + sep + Join(b, sep)
    decreases |b|
  {
    var init := b[..|b| - 1];
    var last := b[|b| - 1];
    assert b == init + [last];
    assert a + b == (a + init) + [last];
    if |b| == 1 {
      assert a + init == a;
      JoinSnoc(a, last, sep);
    } else {
      JoinConcat(a, init, sep);
      JoinSnoc(a + init, last, sep);
      JoinSnoc(init, last, sep);
      Regroup(Join(a, sep), sep, Join(init, sep), last);
    }
  }

  predicate IsDecimalDigit(c: char) {
    '0' <= c <= '9'
  }

  /** A digit of base `radix`; `parseInt` only ever uses base 10 or 16 here. */
  predicate IsDigitIn(c: char, radix: nat) {
    if radix == 16 then IsDecimalDigit(c) || 'a' <= c <= 'f' || 'A' <= c <= 'F'
    else IsDecimalDigit(c)
  }

  function DigitValue(c: char): nat {
    if IsDecimalDigit(c) then c as int - '0' as int
    else if 'a' <= c <= 'f' then c as int - 'a' as int + 10
    else if 'A' <= c <= 'F' then c as int - 'A' as int + 10
    else 0
  }

  /** The longest prefix of `s` made of base-`radix` digits. */
  function DigitRun(s: string, radix: nat): (r: string)
    ensures |r| <= |s| && r == s[..|r|]
    ensures forall i :: 0 <= i < |r| ==> IsDigitIn(r[i], radix)
    ensures |r| == |s| || !IsDigitIn(s[|r|], radix)
  {
    if |s| > 0 && IsDigitIn(s[0], radix) then [s[0]] + DigitRun(s[1..], radix)
    else []
  }

  /** The number a digit string denotes, most significant digit first. */
  function DigitsValue(ds: string, radix: nat): nat {
    if ds == [] then 0
    else DigitsValue(ds[..|ds| - 1], radix) * radix + DigitValue(ds[|ds| - 1])
  }

  /** True when `s` (after the sign) starts with the `0x`/`0X` prefix that
      switches `parseInt` without a radix to base 16. */
  predicate HasHexPrefix(s: string) {
    |s| >= 2 && s[0] == '0' && (s[1] == 'x' || s[1] == 'X')
  }

  /** `parseInt(value)` with no radix argument, as ECMAScript defines it:
      leading whitespace skipped, an optional sign, an optional `0x` prefix,
      then the longest run of digits; `None` stands for `NaN`, which is also
      what `parseInt(undefined)` gives. The signed zero is folded into 0. */
  function ParseInt(value: Option<string>): (r: Option<int>)
    ensures value.None? ==> r.None?
    ensures value.Some? && IsBlank(value.value) ==> r.None?
    ensures r.Some? ==>
      var t := value.value[LeadingSpace(value.value)..];
      |t| > 0 && (t[0] == '-' || t[0] == '+' || IsDecimalDigit(t[0]))
  {
    if value.None? then None
    else
      var t := value.value[LeadingSpace(value.value)..];
      if |t| > 0 && t[0] == '-' then
        match ParseMagnitude(t[1..])
        case None => None
        case Some(m) => Some(-m)
      else if |t| > 0 && t[0] == '+' then ParseMagnitude(t[1..])
      else ParseMagnitude(t)
  }

  /** The unsigned part of `parseInt`: an optional `0x` prefix selecting base
      16, then the longest digit run; no digits at all is `NaN`. */
  function ParseMagnitude(s: string): Option<int> {
    var radix := if HasHexPrefix(s) then 16 else 10;
    var ds := DigitRun(if HasHexPrefix(s) then s[2..] else s, radix);
    if ds == [] then None else Some(DigitsValue(ds, radix))
  }

  function DecimalDigit(d: nat): (c: char)
    requires d < 10
    ensures IsDecimalDigit(c) && DigitValue(c) == d
  {
    ('0' as int + d) as char
  }

  /** The canonical decimal rendering of a natural number, as
      `String(n)` would write it. */
  function ToDecimal(n: nat): (r: string)
    ensures |r| > 0
    ensures forall i :: 0 <= i < |r| ==> IsDecimalDigit(r[i])
    ensures r[0] == '0' ==> r == "0"
  {
    if n < 10 then [DecimalDigit(n)]
    else ToDecimal(n / 10) + [DecimalDigit(n % 10)]
  }

  /** Reading back a rendered number gives the number. */
  lemma {:induction false} DecimalValue(n: nat)
    ensures DigitsValue(ToDecimal(n), 10) == n
  {
    if n >= 10 {
      var r := ToDecimal(n);
      assert r[..|r| - 1] == ToDecimal(n / 10);
      DecimalValue(n / 10);
    }
  }

  /** The longest digit run of a digit string followed by a non-digit is that
      digit string. */
  lemma {:induction false} DigitRunStopsAtNonDigit(ds: string, rest: string, radix: nat)
    requires forall i :: 0 <= i < |ds| ==> IsDigitIn(ds[i], radix)
    requires rest == [] || !IsDigitIn(rest[0], radix)
    ensures DigitRun(ds + rest, radix) == ds
  {
    if ds != [] {
      assert (ds + rest)[1..] == ds[1..] + rest;
      DigitRunStopsAtNonDigit(ds[1..], rest, radix);
    }
  }

  /** The unsigned part reads a decimal rendering back exactly, whatever
      non-digit text follows it, unless that text turns the rendering `0` into
      the hexadecimal prefix `0x`. */
  lemma DecimalMagnitude(n: nat, rest: string)
    requires rest == [] || (!IsDecimalDigit(rest[0]) && (n != 0 || (rest[0] != 'x' && rest[0] != 'X')))
    ensures ParseMagnitude(ToDecimal(n) + rest) == Some(n as int)
  {
    var d := ToDecimal(n);
    DecimalValue(n);
    assert d == "0" ==> n == 0;
    assert !HasHexPrefix(d + rest);
    DigitRunStopsAtNonDigit(d, rest, 10);
  }

  /** Text that starts with a digit has no whitespace or sign to skip. */
  lemma UnsignedParse(s: string)
    requires |s| > 0 && IsDecimalDigit(s[0])
    ensures ParseInt(Some(s)) == ParseMagnitude(s)
  {
    assert LeadingSpace(s) == 0;
    assert s[0..] == s;
  }

  /** `parseInt` reads a decimal rendering back exactly, whatever non-digit
      text follows it (`"12abc"` gives 12, `"3.9"` gives 3, `"7x"` gives 7),
      except that `"0x"` starts a hexadecimal number. */
  lemma DecimalRoundTrip(n: nat, rest: string)
    requires rest == [] || (!IsDecimalDigit(rest[0]) && (n != 0 || (rest[0] != 'x' && rest[0] != 'X')))
    ensures ParseInt(Some(ToDecimal(n) + rest)) == Some(n as int)
  {
    var d := ToDecimal(n);
    assert (d + rest)[0] == d[0];
    UnsignedParse(d + rest);
    DecimalMagnitude(n, rest);
  }

  /** A blank prefix adds exactly its own length to the leading whitespace. */
  lemma {:induction false} LeadingSpaceAfterBlank(w: string, s: string)
    requires IsBlank(w)
    ensures LeadingSpace(w + s) == |w| + LeadingSpace(s)
  {
    if w == [] {
      assert w + s == s;
    } else {
      assert (w + s)[0] == w[0];
      assert (w + s)[1..] == w[1..] + s;
      LeadingSpaceAfterBlank(w[1..], s);
    }
  }

  /** `parseInt` skips any leading whitespace: `" \t42"` reads as `"42"`. */
  lemma ParseIntSkipsSpace(w: string, s: string)
    requires IsBlank(w)
    ensures ParseInt(Some(w + s)) == ParseInt(Some(s))
  {
    LeadingSpaceAfterBlank(w, s);
    assert (w + s)[|w| + LeadingSpace(s)..] == s[LeadingSpace(s)..];
  }

  /** Text that starts with `-` is the negated magnitude of the rest. */
  lemma NegativeParse(s: string)
    requires |s| > 0 && s[0] == '-'
    ensures ParseInt(Some(s)) == match ParseMagnitude(s[1..])
                                 case None => None
                                 case Some(m) => Some(-m)
  {
    assert LeadingSpace(s) == 0;
    assert s[0..] == s;
  }

  /** A leading `-` negates: `parseInt` reads `"-"` followed by a decimal
      rendering back as the negated number. */
  lemma NegativeDecimalRoundTrip(n: nat, rest: string)
    requires rest == [] || (!IsDecimalDigit(rest[0]) && (n != 0 || (rest[0] != 'x' && rest[0] != 'X')))
    ensures ParseInt(Some("-" + (ToDecimal(n) + rest))) == Some(-(n as int))
  {
    var t := ToDecimal(n) + rest;
    var s := "-" + t;
    assert ParseInt(Some(s)) == Some(-(n as int)) by {
      assert ParseMagnitude(s[1..]) == Some(n as int) by {
        assert s[1..] == t;
        DecimalMagnitude(n, rest);
      }
      NegativeParse(s);
    }
  }

  /** After a `0x` prefix the digits are read in base 16: `"0x1f"` gives 31. */
  lemma HexPrefixReadsBase16(ds: string, rest: string)
    requires ds != [] && forall i :: 0 <= i < |ds| ==> IsDigitIn(ds[i], 16)
    requires rest == [] || !IsDigitIn(rest[0], 16)
    ensures ParseInt(Some("0x" + (ds + rest))) == Some(DigitsValue(ds, 16) as int)
  {
    var t := ds + rest;
    var s := "0x" + t;
    assert ParseInt(Some(s)) == ParseMagnitude(s) by {
      UnsignedParse(s);
    }
    assert ParseMagnitude(s) == Some(DigitsValue(ds, 16) as int) by {
      assert HasHexPrefix(s) && s[2..] == t;
      DigitRunStopsAtNonDigit(ds, rest, 16);
    }
  }
}

=== FILE: users.dfy ===
/** The user routes: public profile, profile update and the follow/unfollow
    toggle that maintains the mirrored `following`/`followers` lists. */
module Users {
  import opened Common
  import opened Text
  import opened Seqs
  import opened Http
  import opened Records

  const CannotFollowSelf := "You cannot follow yourself"
  const Followed := "Followed successfully"
  const Unfollowed := "Unfollowed successfully"

  /** The public profile: no email or password, and the two list lengths. */
  datatype Profile = Profile(
    id: Id,
    username: string,
    fullName: string,
    bio: string,
    profilePicture: string,
    followers: seq<Id>,
    following: seq<Id>,
    followersCount: nat,
    followingCount: nat,
    createdAt: int)

  /** The profile of the user stored under `id`. */
  function ProfileOf(id: Id, u: User): (p: Profile)
    ensures p.id == id && p.username == u.username
    ensures p.followersCount == |u.followers| && p.followingCount == |u.following|
  {
    Profile(id, u.username, u.fullName, u.bio, u.profilePicture,
            u.followers, u.following, |u.followers|, |u.following|, u.createdAt)
  }

  /** `GET /users/profile/:username`: the profile of a user with that
      username (some such user, as `findOne` picks, and the one user when
      usernames are unique), or 404. */
  method GetProfile(st: Store, username: string) returns (r: Response<Profile>)
    ensures r.Error? <==> forall k :: k in st.users ==> st.users[k].username != username
    ensures r.Error? ==> r == Error(NotFound, UserNotFound)
    ensures r.Reply? ==>
      && r.status == Ok
      && var p := r.body;
      && p.id in st.users
      && var u := st.users[p.id];
      && u.username == username == p.username
      && p.fullName == u.fullName && p.bio == u.bio && p.profilePicture == u.profilePicture
      && p.followers == u.followers && p.following == u.following
      && p.followersCount == |u.followers| && p.followingCount == |u.following|
      && p.createdAt == u.createdAt
    ensures UniqueUsernames(st) ==> forall k :: k in st.users && st.users[k].username == username ==>
      r == Reply(Ok, ProfileOf(k, st.users[k]))
  {
    if forall k :: k in st.users ==> st.users[k].username != username {
      return Error(NotFound, UserNotFound);
    }
    var k :| k in st.users && st.users[k].username == username;
    r := Reply(Ok, ProfileOf(k, st.users[k]));
  }

  /** The fields of a profile update body; an absent field is left out of the
      update document, so the stored value is kept. */
  datatype ProfileUpdate = ProfileUpdate(fullName: Option<string>, bio: Option<string>,
                                         profilePicture: Option<string>)

  /** The updated user as the route echoes it back. */
  datatype ProfileReply = ProfileReply(id: Id, username: string, email: string, fullName: string,
                                       bio: string, profilePicture: string)

  /** `PUT /users/profile`: sets only `fullName`, `bio` and `profilePicture`
      of the requester, each only when given. */
  function UpdateProfile(st: Store, requester: Id, body: ProfileUpdate): (r: Step<ProfileReply>)
    ensures requester !in st.users ==> r == Step(st, Error(NotFound, UserNotFound))
    ensures requester in st.users ==>
      && var u := st.users[requester];
      && r.response.Reply? && r.response.status == Ok
      && requester in r.store.users
      && var v := r.store.users[requester];
      && r.store == st.(users := st.users[requester := v])
      && v.(fullName := u.fullName, bio := u.bio, profilePicture := u.profilePicture) == u
      && v.fullName == body.fullName.GetOr(u.fullName)
      && v.bio == body.bio.GetOr(u.bio)
      && v.profilePicture == body.profilePicture.GetOr(u.profilePicture)
      && r.response.body == ProfileReply(requester, v.username, v.email, v.fullName, v.bio, v.profilePicture)
  {
    if requester !in st.users then Step(st, Error(NotFound, UserNotFound))
    else
      var u := st.users[requester];
      var v := u.(fullName := body.fullName.GetOr(u.fullName),
                  bio := body.bio.GetOr(u.bio),
                  profilePicture := body.profilePicture.GetOr(u.profilePicture));
      Step(st.(users := st.users[requester := v]),
           Reply(Ok, ProfileReply(requester, v.username, v.email, v.fullName, v.bio, v.profilePicture)))
  }

  /** The `{ message, isFollowing }` reply of the follow route. */
  datatype FollowReply = FollowReply(message: string, isFollowing: bool)

  /** `POST /users/follow/:userId` as the route is written. The raw
      parameter `param` is compared with the current user's id before any
      lookup; `findById` then casts it, and a parameter that does not cast is
      a 500. When the current user already follows the target,
      `current.following` is filtered by the RAW parameter and
      `target.followers` by the current user's id; otherwise each is
      appended to the other's list. The two documents are saved one after
      the other, each writing only the list it changed. */
  function ToggleFollowAsWritten(st: Store, current: Id, param: string): (r: Step<FollowReply>)
    ensures param == current ==> r == Step(st, Error(BadRequest, CannotFollowSelf))
    ensures param != current && CastId(param).None? ==> r == Step(st, Error(ServerError, ServerErrorMessage))
    ensures param != current && CastId(param).Some? && (CastId(param).value !in st.users || current !in st.users) ==>
      r == Step(st, Error(NotFound, UserNotFound))
    ensures r.response.Reply? <==>
      param != current && CastId(param).Some? && CastId(param).value in st.users && current in st.users
    ensures r.response.Reply? ==>
      && var target := CastId(param).value;
      && r.store.posts == st.posts
      && r.store.users.Keys == st.users.Keys
      && (forall k :: k in st.users && k != current && k != target ==> k in r.store.users && r.store.users[k] == st.users[k])
      && r.store.users[current].(following := st.users[current].following, followers := st.users[current].followers)
           == st.users[current]
      && r.store.users[target].(following := st.users[target].following, followers := st.users[target].followers)
           == st.users[target]
      && var wasFollowing := target in st.users[current].following;
      && r.response == Reply(Ok, FollowReply(if wasFollowing then Unfollowed else Followed, !wasFollowing))
      && r.store.users[current].following ==
           (if wasFollowing then RemoveAll(st.users[current].following, param)
            else st.users[current].following + [target])
      && r.store.users[target].followers ==
           (if wasFollowing then RemoveAll(st.users[target].followers, current)
            else st.users[target].followers + [current])
  {
    if param == current then Step(st, Error(BadRequest, CannotFollowSelf))
    else
      match CastId(param)
      case None => Step(st, Error(ServerError, ServerErrorMessage))
      case Some(target) =>
        if target !in st.users || current !in st.users then Step(st, Error(NotFound, UserNotFound))
        else
          var c := st.users[current];
          var wasFollowing := target in c.following;
          var following := if wasFollowing then RemoveAll(c.following, param) else c.following + [target];
          var followers := if wasFollowing then RemoveAll(st.users[target].followers, current)
                           else st.users[target].followers + [current];
          Step(st.(users := SaveBoth(st.users, current, following, target, followers)),
               Reply(Ok, FollowReply(if wasFollowing then Unfollowed else Followed, !wasFollowing)))
  }

  /** The two saves of the follow route, one after the other: the current
      user's document writes only `following`, then the target's document,
      as read after the first save, writes only `followers`. When the two
      are the same user both lists land on that one record. */
  function SaveBoth(users: map<Id, User>, current: Id, following: seq<Id>, target: Id, followers: seq<Id>)
    : (u: map<Id, User>)
    requires current in users && target in users
    ensures u.Keys == users.Keys
    ensures forall k :: k in users && k != current && k != target ==> u[k] == users[k]
    ensures u[current].following == following && u[target].followers == followers
    ensures u[current].(following := users[current].following, followers := users[current].followers) == users[current]
    ensures u[target].(following := users[target].following, followers := users[target].followers) == users[target]
    ensures current != target ==> u[current].followers == users[current].followers
    ensures current != target ==> u[target].following == users[target].following
  {
    var saved := users[current := users[current].(following := following)];
    saved[target := saved[target].(followers := followers)]
  }

  /** The follow toggle on a cast id: following oneself is refused, a
      missing target or current user is a 404. Otherwise, when the current
      user already follows the target, every occurrence of the target leaves
      `current.following` and every occurrence of the current user leaves
      `target.followers`; when not, each is appended to the other's list.
      Nothing else in the store changes. */
  function FollowById(st: Store, current: Id, target: Id): (r: Step<FollowReply>)
    ensures target == current ==> r == Step(st, Error(BadRequest, CannotFollowSelf))
    ensures target != current && (target !in st.users || current !in st.users) ==>
      r == Step(st, Error(NotFound, UserNotFound))
    ensures r.response.Reply? <==> target != current && target in st.users && current in st.users
    ensures r.response.Reply? ==>
      && var c := st.users[current];
      && var t := st.users[target];
      && var wasFollowing := target in c.following;
      && r.response.status == Ok
      && r.response.body.isFollowing == !wasFollowing
      && r.response.body.message == (if wasFollowing then Unfollowed else Followed)
      && current in r.store.users && target in r.store.users
      && var c' := r.store.users[current];
      && var t' := r.store.users[target];
      && r.store == st.(users := st.users[current := c'][target := t'])
      && c' == c.(following := c'.following)
      && t' == t.(followers := t'.followers)
      && (wasFollowing ==>
            && target !in c'.following && multiset(c'.following) == multiset(c.following)[target := 0]
            && current !in t'.followers && multiset(t'.followers) == multiset(t.followers)[current := 0]
            && c'.following == RemoveAll(c.following, target) && t'.followers == RemoveAll(t.followers, current))
      && (!wasFollowing ==>
            c'.following == c.following + [target] && t'.followers == t.followers + [current])
  {
    if target == current then Step(st, Error(BadRequest, CannotFollowSelf))
    else if target !in st.users || current !in st.users then Step(st, Error(NotFound, UserNotFound))
    else
      var c := st.users[current];
      var t := st.users[target];
      var wasFollowing := target in c.following;
      var c' := c.(following := Toggle(c.following, target));
      var t' := t.(followers := if wasFollowing then RemoveAll(t.followers, current)
                                else t.followers + [current]);
      Step(st.(users := st.users[current := c'][target := t']),
           Reply(Ok, FollowReply(if wasFollowing then Unfollowed else Followed, !wasFollowing)))
  }

  /** The follow route as it is evidently meant: the parameter is cast
      first (a parameter that does not cast is a 500), and both the
      self-follow guard and the unfollow filter compare the cast id, so every
      spelling of an id acts alike. */
  function ToggleFollow(st: Store, current: Id, param: string): (r: Step<FollowReply>)
    ensures CastId(param).None? ==> r == Step(st, Error(ServerError, ServerErrorMessage))
    ensures CastId(param).Some? ==> r == FollowById(st, current, CastId(param).value)
  {
    match CastId(param)
    case None => Step(st, Error(ServerError, ServerErrorMessage))
    case Some(target) => FollowById(st, current, target)
  }

  /** Two spellings of the same id act alike on the follow route. */
  lemma SpellingIrrelevant(st: Store, current: Id, param: string, other: string)
    requires CastId(other) == CastId(param)
    ensures ToggleFollow(st, current, other) == ToggleFollow(st, current, param)
  {
  }

  /** With the id in its canonical spelling, the route as written and the
      corrected toggle do the same. */
  lemma {:induction false} CanonicalParamAgrees(st: Store, current: Id, param: string)
    requires IsObjectId(param)
    ensures ToggleFollowAsWritten(st, current, param) == ToggleFollow(st, current, param)
  {
    var r := ToggleFollowAsWritten(st, current, param);
    if r.response.Reply? {
      assert CastId(param) == Some(param);
      var c := st.users[current];
      var c' := c.(following := Toggle(c.following, param));
      var saved := st.users[current := c'];
      assert saved[param] == st.users[param];
      assert ToggleFollow(st, current, param) == FollowById(st, current, param);
    }
  }

  /** Comparing the raw parameter lets a user follow themselves through
      another spelling of their own id (upper-case hexadecimal digits, say):
      the route answers 200, where the cast-based guard answers 400. */
  lemma SelfFollowThroughOtherSpelling(st: Store, current: Id, param: string)
    requires current in st.users && CastId(param) == Some(current) && param != current
    ensures ToggleFollowAsWritten(st, current, param).response.Reply?
    ensures ToggleFollow(st, current, param).response == Error(BadRequest, CannotFollowSelf)
  {
  }

  /** Unfollowing through another spelling of the target's id removes the
      current user from the target's followers but leaves the target in the
      current user's `following`: the route answers 'Unfollowed' and the
      follow graph is no longer mirrored. */
  lemma {:induction false} UnfollowThroughOtherSpellingBreaksMirror(st: Store, current: Id, target: Id, param: string)
    requires FollowMirror(st) && current in st.users && target in st.users && current != target
    requires CastId(param) == Some(target) && param != target && param != current
    requires target in st.users[current].following
    ensures ToggleFollowAsWritten(st, current, param).response == Reply(Ok, FollowReply(Unfollowed, false))
    ensures !FollowMirror(ToggleFollowAsWritten(st, current, param).store)
  {
    var s' := ToggleFollowAsWritten(st, current, param).store;
    assert target in s'.users[current].following;
    assert current !in s'.users[target].followers;
  }

  /** A concrete id and another spelling of it. */
  const SampleId := "00000000000000000000000a"
  const SampleIdUpper := "00000000000000000000000A"

  /** `SampleIdUpper` differs from `SampleId` but casts to it. */
  lemma SampleSpelling()
    ensures SampleIdUpper != SampleId && CastId(SampleIdUpper) == Some(SampleId)
  {
    var p := SampleIdUpper;
    assert p[23] != SampleId[23];
    assert forall i :: 0 <= i < 24 ==> IsDigitIn(p[i], 16);
    var r := CastId(p);
    assert r.Some?;
    assert forall i :: 0 <= i < 24 ==> r.value[i] == SampleId[i];
    assert r.value == SampleId;
  }

  /** The user stored under `SampleId` who posts to
      `/users/follow/00000000000000000000000A` follows themselves. */
  lemma SelfFollowSample(st: Store)
    requires SampleId in st.users
    ensures ToggleFollowAsWritten(st, SampleId, SampleIdUpper).response.Reply?
    ensures ToggleFollow(st, SampleId, SampleIdUpper).response == Error(BadRequest, CannotFollowSelf)
  {
    SampleSpelling();
    SelfFollowThroughOtherSpelling(st, SampleId, SampleIdUpper);
  }

  /** A follow toggle on a cast id keeps the follow graph mirrored. */
  lemma {:induction false} FollowByIdKeepsMirror(st: Store, current: Id, target: Id)
    requires FollowMirror(st)
    ensures FollowMirror(FollowById(st, current, target).store)
  {
    var r := FollowById(st, current, target);
    if r.response.Reply? {
      var s' := r.store;
      forall a, b | a in s'.users && b in s'.users
        ensures a in s'.users[b].followers <==> b in s'.users[a].following
      {
        assert a in st.users[b].followers <==> b in st.users[a].following;
        if a == current && b == target {
          assert current in st.users[target].followers <==> target in st.users[current].following;
        }
      }
    }
  }

  /** The follow route keeps the follow graph mirrored, whatever the
      parameter. */
  lemma ToggleFollowKeepsMirror(st: Store, current: Id, param: string)
    requires FollowMirror(st)
    ensures FollowMirror(ToggleFollow(st, current, param).store)
  {
    if CastId(param).Some? {
      FollowByIdKeepsMirror(st, current, CastId(param).value);
    }
  }

  /** The store a successful toggle writes, spelled out for one step. */
  lemma FollowByIdStore(st: Store, current: Id, target: Id)
    requires current in st.users && target in st.users && current != target
    ensures var c := st.users[current];
      var t := st.users[target];
      var w := target in c.following;
      FollowById(st, current, target).store == st.(users := st.users
        [current := c.(following := if w then RemoveAll(c.following, target) else c.following + [target])]
        [target := t.(followers := if w then RemoveAll(t.followers, current) else t.followers + [current])])
  {
  }

  /** Following and then unfollowing a cast id restores the store exactly,
      provided the graph is mirrored beforehand. */
  lemma {:induction false} FollowByIdTwiceRestores(st: Store, current: Id, target: Id)
    requires FollowMirror(st)
    requires current in st.users && target in st.users && current != target
    requires target !in st.users[current].following
    ensures FollowById(FollowById(st, current, target).store, current, target).store == st
  {
    var c := st.users[current];
    var t := st.users[target];
    assert current !in t.followers;
    var c1 := c.(following := c.following + [target]);
    var t1 := t.(followers := t.followers + [current]);
    FollowByIdStore(st, current, target);
    var once := FollowById(st, current, target).store;
    assert once == st.(users := st.users[current := c1][target := t1]);
    FollowByIdStore(once, current, target);
    RemoveAllAppended(c.following, target);
    RemoveAllAbsent(c.following, target);
    RemoveAllAppended(t.followers, current);
    RemoveAllAbsent(t.followers, current);
    assert FollowById(once, current, target).store == st.(users := st.users[current := c1][target := t1][current := c][target := t]);
    assert st.users[current := c1][target := t1][current := c][target := t] == st.users;
  }

  /** Following and then unfollowing, under any spelling of the target's id,
      restores the store exactly, provided the graph is mirrored
      beforehand. */
  lemma FollowTwiceRestores(st: Store, current: Id, param: string)
    requires FollowMirror(st) && CastId(param).Some?
    requires current in st.users && CastId(param).value in st.users && current != CastId(param).value
    requires CastId(param).value !in st.users[current].following
    ensures ToggleFollow(ToggleFollow(st, current, param).store, current, param).store == st
  {
    FollowByIdTwiceRestores(st, current, CastId(param).value);
  }

  /** After a profile update the requester's profile shows the fields the
      body gave and the same follower and following counts; usernames stay
      unique, so looking the profile up by username finds exactly this one. */
  lemma UpdateShowsInProfile(st: Store, requester: Id, body: ProfileUpdate)
    requires UniqueUsernames(st) && requester in st.users
    ensures var st' := UpdateProfile(st, requester, body).store;
      var u := st.users[requester];
      && UniqueUsernames(st')
      && requester in st'.users && st'.users[requester].username == u.username
      && var p := ProfileOf(requester, st'.users[requester]);
      && p.fullName == body.fullName.GetOr(u.fullName)
      && p.bio == body.bio.GetOr(u.bio)
      && p.profilePicture == body.profilePicture.GetOr(u.profilePicture)
      && p.followersCount == |u.followers| && p.followingCount == |u.following|
  {
  }

  /** A profile update leaves the follow graph alone. */
  lemma UpdateProfileKeepsMirror(st: Store, requester: Id, body: ProfileUpdate)
    requires FollowMirror(st)
    ensures FollowMirror(UpdateProfile(st, requester, body).store)
  {
  }
}
